=== FILE: README.md ===
# Map extractor of GRF Editor, modelled in Dafny

GRF Editor's map extractor takes a map, model or effect file opened from a GRF archive. It
builds a tree of every resource that file depends on:

- a ground (`.gnd`) or world (`.rsw`) leads to its textures or models;
- a model (`.rsm`, `.rsm2`) leads to its textures;
- an effect (`.str`) leads to its layer textures.

Each resource is looked up in the stacked archives the user configured. Missing resources
become disabled (red) nodes. The user ticks resources with tri-state check boxes: checking a
node cascades to its enabled children, and parents follow their children. "Select root files"
settles a node and its direct children without cascading. The export writes every ticked
resource, once per full path, under a destination folder.

The project models the control class `MapExtractor` as an imperative Dafny class:

- the forest of tree items;
- the progress value, with a ghost log of every value it takes;
- the destination path and the reload flag;
- the opened archive and file;
- the part of the file system the export writes: a map from path to bytes, plus a set of directories.

Modules:

- `Paths`: the `System.IO.Path` operations used (Combine, GetDirectoryName,
  GetFileNameWithoutExtension, and the lower-cased extension test).
- `Resources`: the layered resolver (a function from relative path to the winning archive and
  its bytes), the four parsers as uninterpreted functions, and first-occurrence
  deduplication.
- `Tree`: the node datatype. Its fields are header text, resource path, enabled flag,
  `IsChecked` as `Option<bool>` (`None` is indeterminate) and children. Nodes are addressed by
  index paths from the roots. Soundness holds for every node the walk builds: a node is
  enabled exactly when its resource was found, and a missing node has no children and stays
  unchecked.
- `Walk`: `_addNode` as a recursive method over values. The cancel predicate is a datatype
  that turns true from a given poll on, and the number of polls is threaded through the calls.
- `Selection`: the Checked/Unchecked handlers (a downward cascade, then the upward pass of
  `_checkParents`) and "select root files", as functions with their properties.
- `Export`: `_getSelectedNodes`, the deduplication and directory planning of `_export`, the
  write loop's effect on the file system, and progress.
- `ResourceList`: the `LoadResourceMethod` lambda that keeps the currently opened archive
  first in the resource list.
- `Extractor`: the class `MapExtractor` and the value-level loops it calls.

Where the code's behaviour is not what a reader might expect, the model follows the code:

- Deduplication of references within one parent is exact, case-sensitive string equality
  (`HashSet<string>` and `Distinct()`).
- A node attached before the cancel predicate turned true stays in the tree, with the
  children walked before the cut. The rebuild is not discarded.
- The first write that throws ends the whole export. Later files are not written, and
  `_destinationPath` keeps its value.
- The upward pass does not recompute a parent from its children. It leaves a parent that
  already holds the value alone, even if some of its children do not hold it. So "a parent
  holds v exactly when its enabled children do" is proved only for the ancestors the pass
  changed (`Selection.ParentsConsistent`).
- "Select root files" detaches the Checked handler while it sets boxes, so nothing cascades
  down. The upward pass runs only when the selected node ends checked.

## Model

| member | source | states |
|---|---|---|
| Paths.Combine | GRFEditor/Tools/MapExtractor/MapExtractor.xaml.cs:330 | Path.Combine: an empty name gives the directory, a rooted name replaces it, otherwise one `\` is put between them unless the directory already ends with a separator or `:`; its properties are `Paths.CombineShape` |
| Paths.CombineShape | GRFEditor/Tools/MapExtractor/MapExtractor.xaml.cs:330 | Path.Combine ends with the name; a relative name follows the directory with at most one separator between them; a rooted name replaces the directory |
| Paths.CombineInjective | GRFEditor/Tools/MapExtractor/MapExtractor.xaml.cs:229 | under one directory, two non-empty relative names that are not rooted combine to the same path only when they are equal |
| Paths.CombineSplits | GRFEditor/Tools/MapExtractor/MapExtractor.xaml.cs:219 | the directory name of a directory combined with a plain file name is that directory, and its file name is the name |
| Paths.CombineKeepsExtension | GRFEditor/Tools/MapExtractor/MapExtractor.xaml.cs:330-346 | joining a name under a directory keeps its extension and its stem, so the node's kind is the same whether taken from the name or the joined path |
| Paths.DirectoryName | GRFEditor/Tools/MapExtractor/MapExtractor.xaml.cs:45 | Path.GetDirectoryName: the path up to its last separator, but never shorter than its root (`C:\`, `C:`, `\` or `\\server\share`), and empty (null) for a path that is only its root; the result is a proper prefix, at least the root, and where it is longer than the root it stops right before the last separator; the root case is `Paths.DirectoryNameAtRoot` |
| Paths.RootLength | GRFEditor/Tools/MapExtractor/MapExtractor.xaml.cs:45 | the root `Path.GetDirectoryName` keeps: a UNC server and share, a leading separator, or a drive with or without its separator; a path has a root exactly when `Path.IsPathRooted` holds |
| Paths.DirectoryNameAtRoot | GRFEditor/Tools/MapExtractor/MapExtractor.xaml.cs:150 | the directory of a file directly under a drive's root or the current drive's root is that root with its separator, so an archive at `C:\` exports to `C:\` |
| Paths.FileNameWithoutExtension | GRFEditor/Tools/MapExtractor/MapExtractor.xaml.cs:262 | the map file's stem is a prefix of the file name and holds no separator |
| Paths.ExtensionOfAppended | GRFEditor/Tools/MapExtractor/MapExtractor.xaml.cs:273-298 | a stem followed by a lower-case extension has that extension and that stem back |
| Paths.Extension | GRFEditor/Tools/MapExtractor/MapExtractor.xaml.cs:346 | the `GetExtension` helper: the lower-cased suffix of the file name from its last `.`, empty without a dot or when the dot ends the name; `Paths.ExtensionIsLowerRaw` proves it equal to `Path.GetExtension` lower-cased |
| Paths.ExtensionIsLowerRaw | GRFEditor/Tools/MapExtractor/MapExtractor.xaml.cs:346 | the extension computed by one backward scan is the file name's suffix from its last dot (`Path.GetExtension`), lower-cased |
| Resources.Distinct | GRFEditor/Tools/MapExtractor/MapExtractor.xaml.cs:354-373 | first-occurrence deduplication, as `HashSet<string>` insertion and `Distinct()` enumerate; its properties are `Resources.DistinctSpec` |
| Resources.DistinctSpec | GRFEditor/Tools/MapExtractor/MapExtractor.xaml.cs:354-373 | deduplication yields no repeats, loses and invents no element, and is no longer than its input |
| Resources.DistinctIdempotent | GRFEditor/Tools/MapExtractor/MapExtractor.xaml.cs:354-366 | deduplicating twice is deduplicating once |
| Resources.DistinctExtends | GRFEditor/Tools/MapExtractor/MapExtractor.xaml.cs:354-364 | adding elements to a HashSet keeps the ones already there in their order |
| Resources.Flatten | GRFEditor/Tools/MapExtractor/MapExtractor.xaml.cs:387 | the flattened layer lists hold exactly the names of every layer |
| Resources.Dependencies | GRFEditor/Tools/MapExtractor/MapExtractor.xaml.cs:350-393 | the switch on the extension: the distinct mesh then top-level textures of a model, the distinct texture paths of a ground, the distinct models of a world, the distinct layer textures of an effect, none for any other kind, and `None` when the parser throws; its properties are `Resources.DependenciesOfKind` |
| Resources.DependenciesOfKind | GRFEditor/Tools/MapExtractor/MapExtractor.xaml.cs:350-393 | per kind: the references are the mesh and top-level textures of a model, the texture paths of a ground, the models of a world and the layer textures of an effect; the parser throwing is the only way they are absent; the references never repeat, and a kind with no case (textures and anything else) has none |
| Resources.ChildLocation | GRFEditor/Tools/MapExtractor/MapExtractor.xaml.cs:367-390 | the location argument of the recursive `_addNode` calls: `data\texture\` for the textures of models and grounds, `data\model\` for the models of a world, and the effect's own location for an effect's textures |
| Walk.AddNode | GRFEditor/Tools/MapExtractor/MapExtractor.xaml.cs:320-402 | the node and the poll count are exactly those of `Walk.WalkFrom`. No node when cancelled on entry. A missing resource gives a disabled, unchecked, childless node (`_disableNode`, :174-180). A found one is enabled and set to isChecked. Cancellation at the second poll leaves the node childless. The children follow the distinct references in order under the kind's directory: all of them when not cancelled, none when the parser throws. The whole subtree is `Walk.Walked`: every level below obeys the same rules. Unless the cancel predicate had turned true by the walk's last poll, every reference is walked at every level down to the fuel bound; otherwise the walk is cut at one point in pre-order, so at each level only the last child may be cut short and every child before it is complete |
| Walk.Walked | GRFEditor/Tools/MapExtractor/MapExtractor.xaml.cs:320-402 | what `_addNode` builds for a name under a location, level by level: the resource found there, enabled and set to isChecked exactly when found, the kind's references as children, each walked under the kind's directory. When the walk may have been cut, every child but the last is walked completely; properties in `Walk.WalkedSound`, `Walk.WalkedResolved`, `Walk.WalkedUnique` and `Walk.WalkedCompleteChildren` |
| Walk.WalkedSound | GRFEditor/Tools/MapExtractor/MapExtractor.xaml.cs:320-402 | a subtree built by the walk is sound (enabled exactly when resolved; a missing node childless and unchecked) and every enabled node in it holds isChecked |
| Walk.WalkedResolved | GRFEditor/Tools/MapExtractor/MapExtractor.xaml.cs:331-337 | every resource recorded anywhere in a walked subtree is what `FindTkPath` returns for that resource's own relative path |
| Walk.WalkedWeaken | GRFEditor/Tools/MapExtractor/MapExtractor.xaml.cs:322 | a complete walk also satisfies the rules of a walk that may have been cut |
| Walk.AllWalkedComplete | GRFEditor/Tools/MapExtractor/MapExtractor.xaml.cs:366-391 | in a completely walked list of children, every child is walked completely |
| Walk.WalkedCompleteChildren | GRFEditor/Tools/MapExtractor/MapExtractor.xaml.cs:346-391 | a complete walk with fuel left has exactly one child per distinct reference of the node's resource, in order and named after it, each walked completely one level deeper |
| Walk.WalkedUnique | GRFEditor/Tools/MapExtractor/MapExtractor.xaml.cs:320-402 | a complete walk is determined by the resolver, the parsers, the name, the location and isChecked: two complete walks of the same name build the same subtree |
| Walk.WalkFrom | GRFEditor/Tools/MapExtractor/MapExtractor.xaml.cs:320-402 | the reference definition of `_addNode` entered after a given number of polls: no node and one poll when the entry poll (:322) sees the cancel; a disabled childless node after one poll when the resource is missing; otherwise an enabled node whose children are `Walk.ExpandFrom`'s. It makes at least one poll, and names the node as asked; properties in `Walk.WalkFromUncancelled` |
| Walk.ExpandFrom | GRFEditor/Tools/MapExtractor/MapExtractor.xaml.cs:344-393 | the children of a resolvable node: none after one poll when the poll at :348 sees the cancel, the fuel is spent or the parser throws; otherwise the loop of `Walk.ChildrenFrom` over every distinct reference |
| Walk.ChildrenFrom | GRFEditor/Tools/MapExtractor/MapExtractor.xaml.cs:366-391 | the loop over the first i references: each `_addNode` call is entered with the polls made so far and its node, if any, is appended; every reference costs at least one poll, and there are at most as many nodes as references |
| Walk.WalkFromUncancelled | GRFEditor/Tools/MapExtractor/MapExtractor.xaml.cs:320-402 | a walk whose cancel predicate had not turned true by its last poll builds the same nodes with the same polls as the walk with a null cancel method |
| Walk.ExpandFromUncancelled | GRFEditor/Tools/MapExtractor/MapExtractor.xaml.cs:344-393 | the same for the children of a resolvable node |
| Walk.ChildrenFromUncancelled | GRFEditor/Tools/MapExtractor/MapExtractor.xaml.cs:366-391 | the same for the loop over the references |
| Walk.ExpandNode | GRFEditor/Tools/MapExtractor/MapExtractor.xaml.cs:344-393 | the resolvable branch: the children and the poll count are exactly `Walk.ExpandFrom`'s; the node is enabled, set to isChecked, carries the found resource, has children only when neither cancelled nor out of fuel, and is walked at every level |
| Walk.ExpandChildren | GRFEditor/Tools/MapExtractor/MapExtractor.xaml.cs:346-393 | the poll, the parse and the loop, with exactly `Walk.ExpandFrom`'s children and poll count: no children when cancelled at the poll or when the parser throws; otherwise a prefix of the distinct references (all of them when not cancelled by the last poll), each child walked one level deeper under the kind's directory |
| Walk.AddChildren | GRFEditor/Tools/MapExtractor/MapExtractor.xaml.cs:366-391 | the loop over the distinct references, with exactly `Walk.ChildrenFrom`'s nodes and poll count: the children are walked nodes for a prefix of the references, in order; every child but the last is walked completely, the last one too unless the cancel predicate had turned true by the last poll; a reference left without a node means it had |
| Walk.AddChild | GRFEditor/Tools/MapExtractor/MapExtractor.xaml.cs:366-391 | one recursive `_addNode` call entered with the polls made so far: its node, exactly `Walk.WalkFrom`'s, is appended when there is one, and the poll count is `Walk.WalkFrom`'s; the node is complete unless cancelled by the call's last poll, and the children before it must be complete; no node means cancelled |
| Selection.PushChild | GRFEditor/Tools/MapExtractor/MapExtractor.xaml.cs:461-464 | the child's `IsChecked = value` and its own handler cascading: an enabled child not already holding the value takes it and pushes it into its children; anything else is left alone; properties in `Selection.PushOnlySets`, `Selection.PushReachesAll` and `Selection.PushIdempotent` |
| Selection.Push | GRFEditor/Tools/MapExtractor/MapExtractor.xaml.cs:461-464 | the handler's loop over the node's items: every child is pushed the value; the node's own state is not touched |
| Selection.PushOnlySets | GRFEditor/Tools/MapExtractor/MapExtractor.xaml.cs:456-490 | the handler's cascade changes only check states, only of enabled nodes, and only to the value; the node itself is left as it is |
| Selection.PushSetsChildren | GRFEditor/Tools/MapExtractor/MapExtractor.xaml.cs:461-464 | after the cascade every enabled child holds the value |
| Selection.PushReachesAll | GRFEditor/Tools/MapExtractor/MapExtractor.xaml.cs:456-490 | when no enabled descendant held the value, the cascade sets the value on every enabled descendant |
| Selection.PushNoOp | GRFEditor/Tools/MapExtractor/MapExtractor.xaml.cs:461-464 | a node whose enabled children already hold the value raises no change |
| Selection.PushIdempotent | GRFEditor/Tools/MapExtractor/MapExtractor.xaml.cs:456-490 | raising the cascade twice is raising it once |
| Selection.PushSound | GRFEditor/Tools/MapExtractor/MapExtractor.xaml.cs:456-490 | the cascade keeps the tree sound (missing nodes untouched) |
| Selection.Parents | GRFEditor/Tools/MapExtractor/MapExtractor.xaml.cs:182-212 | `_checkParents`: at each parent, all enabled children holding the value set it and recurse, a parent not holding it becomes indeterminate and recurses, and a parent already holding it stops the pass; properties in `Selection.ParentsStep` and the rows below |
| Selection.ParentsStep | GRFEditor/Tools/MapExtractor/MapExtractor.xaml.cs:188-205 | one step of the pass at the parent q of p: q ends with the value when all q's enabled children hold it, indeterminate when they do not and q did not hold the value, and unchanged otherwise, in which case the pass stops there and the forest is unchanged |
| Selection.ParentsShape | GRFEditor/Tools/MapExtractor/MapExtractor.xaml.cs:182-212 | the upward pass changes only check states |
| Selection.ParentsOutside | GRFEditor/Tools/MapExtractor/MapExtractor.xaml.cs:182-212 | the upward pass changes nothing but strict ancestors of the node |
| Selection.ParentsConsistent | GRFEditor/Tools/MapExtractor/MapExtractor.xaml.cs:188-205 | an ancestor the pass changed holds the value over enabled children that all hold it, or is indeterminate over children that do not |
| Selection.ParentsIdempotent | GRFEditor/Tools/MapExtractor/MapExtractor.xaml.cs:182-212 | running the upward pass again changes nothing |
| Selection.ParentsQuiet | GRFEditor/Tools/MapExtractor/MapExtractor.xaml.cs:201-205 | when every ancestor already holds the value, the pass changes nothing |
| Selection.ParentsSound | GRFEditor/Tools/MapExtractor/MapExtractor.xaml.cs:182-212 | the upward pass keeps the forest sound |
| Selection.Handled | GRFEditor/Tools/MapExtractor/MapExtractor.xaml.cs:456-490 | the Checked or Unchecked handler of the node at p: push the value into its children, then the upward pass from p; properties in the `Selection.Handled*` rows |
| Selection.HandledIdempotent | GRFEditor/Tools/MapExtractor/MapExtractor.xaml.cs:456-490 | re-applying a check or uncheck that was just handled changes nothing |
| Selection.HandledQuiet | GRFEditor/Tools/MapExtractor/MapExtractor.xaml.cs:456-490 | a node whose enabled children and ancestors already hold the value raises a handler that changes nothing |
| Selection.HandledSound | GRFEditor/Tools/MapExtractor/MapExtractor.xaml.cs:456-490 | the handler keeps the forest sound and changes only check states |
| Selection.SelectChild | GRFEditor/Tools/MapExtractor/MapExtractor.xaml.cs:502-530 | one child of the selected node: a missing one is skipped; a resolvable one is checked when every resolvable grandchild is, indeterminate otherwise |
| Selection.SelectRoot | GRFEditor/Tools/MapExtractor/MapExtractor.xaml.cs:494-531 | the selected node without cascading: indeterminate when some resolvable child ends indeterminate, otherwise checked when resolvable and unchanged when missing; its children settled one by one |
| Selection.SelectRootFiles | GRFEditor/Tools/MapExtractor/MapExtractor.xaml.cs:492-537 | the menu item on the node at p: settle it, then run the upward pass with true only when it ends checked; properties in `Selection.SelectRootSettles` and `Selection.SelectRootFilesSound` |
| Selection.SelectRootSettles | GRFEditor/Tools/MapExtractor/MapExtractor.xaml.cs:492-531 | a resolvable selected node ends checked exactly when all its resolvable children do, indeterminate otherwise; a missing one is left alone; each resolvable child is checked exactly when all its resolvable children are, indeterminate otherwise; missing children and every grandchild are untouched |
| Selection.SelectRootFilesSound | GRFEditor/Tools/MapExtractor/MapExtractor.xaml.cs:492-537 | "select root files" keeps the forest sound and changes only check states |
| Export.Selected | GRFEditor/Tools/MapExtractor/MapExtractor.xaml.cs:413-421 | `_getSelectedNodes(node)`: the node's resource when it is checked, then the selection of each child in order; properties in `Export.SelectedComplete` and `Export.SelectedOnlyChecked` |
| Export.SelectedAll | GRFEditor/Tools/MapExtractor/MapExtractor.xaml.cs:408-411 | `_getSelectedNodes(null)`: the selections of the roots in order |
| Export.SelectedAllAppend | GRFEditor/Tools/MapExtractor/MapExtractor.xaml.cs:408-411 | the selection of the roots is each root's selection, concatenated in root order |
| Export.SelectedNodes | GRFEditor/Tools/MapExtractor/MapExtractor.xaml.cs:413-421 | the AddRange recursion collects the pre-order list of checked nodes' resources |
| Export.SelectedNodesAll | GRFEditor/Tools/MapExtractor/MapExtractor.xaml.cs:408-411 | the collection from all roots is the pre-order selection of the forest |
| Export.SelectedComplete | GRFEditor/Tools/MapExtractor/MapExtractor.xaml.cs:414-415 | every checked node has a resource, and it is selected |
| Export.SelectedOnlyChecked | GRFEditor/Tools/MapExtractor/MapExtractor.xaml.cs:404-425 | every selected resource is the resource of some checked node |
| Export.ExportFiles | GRFEditor/Tools/MapExtractor/MapExtractor.xaml.cs:218 | the GroupBy on the full path keeping each group's first element: the selection without repeats, first occurrence kept; properties in `Export.ExportedOnce` |
| Export.ExportedOnce | GRFEditor/Tools/MapExtractor/MapExtractor.xaml.cs:218 | the files to write are exactly the selected ones, each exactly once, however many parents share it |
| Export.DirectoriesToCreate | GRFEditor/Tools/MapExtractor/MapExtractor.xaml.cs:219 | each file's directory joined under the destination, without repeats; properties in `Export.DirectoryCreatedForEachFile` |
| Export.DirectoryCreatedForEachFile | GRFEditor/Tools/MapExtractor/MapExtractor.xaml.cs:219-224 | the directory of every file to write is among those created |
| Export.DistinctRelativePaths | GRFEditor/Tools/MapExtractor/MapExtractor.xaml.cs:218-231 | with one resolver, no two files to write share a relative path |
| Export.DistinctOutputPaths | GRFEditor/Tools/MapExtractor/MapExtractor.xaml.cs:218-231 | when every selected relative path is non-empty and not rooted, no two files to write target the same output path under the destination, so no output file is written twice |
| Export.SelectedResolved | GRFEditor/Tools/MapExtractor/MapExtractor.xaml.cs:404-421 | the selection of a forest whose every resource is the one the resolver finds is itself resolved by it |
| Export.WrittenCount | GRFEditor/Tools/MapExtractor/MapExtractor.xaml.cs:226-234 | the loop stops after at most every file, and where it stops short, that file's write throws |
| Export.WrittenBeforeFailure | GRFEditor/Tools/MapExtractor/MapExtractor.xaml.cs:226-234 | every file before the stopping point was written without an exception |
| Export.WrittenCountAt | GRFEditor/Tools/MapExtractor/MapExtractor.xaml.cs:226-240 | standing at a file not past the stopping point, the loop stops there exactly when that file's write throws |
| Export.WriteAll | GRFEditor/Tools/MapExtractor/MapExtractor.xaml.cs:226-234 | the file system after the first n writes of the loop: each write stores the resolver's bytes at the destination joined with the file's relative path; properties in `Export.WriteAllUntouched` and `Export.WriteAllWritten` |
| Export.WriteAllUntouched | GRFEditor/Tools/MapExtractor/MapExtractor.xaml.cs:226-234 | a path no written file targets keeps what it held |
| Export.WriteAllWritten | GRFEditor/Tools/MapExtractor/MapExtractor.xaml.cs:226-234 | after the writes, each written file's output path holds its bytes unless a later file targets the same path |
| Export.ProgressAfter | GRFEditor/Tools/MapExtractor/MapExtractor.xaml.cs:233 | the progress after file index of count: (index + 1) / count * 100; properties in `Export.ProgressRises` and `Export.ProgressLast` |
| Export.ProgressRises | GRFEditor/Tools/MapExtractor/MapExtractor.xaml.cs:233 | progress after each file lies in (0, 100], rises strictly, and is 100 after the last |
| Export.ProgressSteps | GRFEditor/Tools/MapExtractor/MapExtractor.xaml.cs:226-234 | one progress value is reported per file written |
| Export.ProgressStepsOf | GRFEditor/Tools/MapExtractor/MapExtractor.xaml.cs:233 | a list whose i-th value is the progress after file i is the list of progress steps |
| Export.ProgressStepsAt | GRFEditor/Tools/MapExtractor/MapExtractor.xaml.cs:233 | the i-th reported value is the progress after file i |
| Export.ProgressStepsRise | GRFEditor/Tools/MapExtractor/MapExtractor.xaml.cs:226-234 | the values reported during an export rise strictly within (0, 100] and end at 100 when every file was written |
| ResourceList.WithoutMarked | GRFEditor/Tools/MapExtractor/MapExtractor.xaml.cs:98 | RemoveAll keeps exactly the entries not starting with the marker, none added |
| ResourceList.WithoutMarkedAppend | GRFEditor/Tools/MapExtractor/MapExtractor.xaml.cs:98 | removal works entry by entry, so kept entries stay in order |
| ResourceList.WithoutMarkedNone | GRFEditor/Tools/MapExtractor/MapExtractor.xaml.cs:98 | a list with no marked entry is left unchanged |
| ResourceList.LoadResources | GRFEditor/Tools/MapExtractor/MapExtractor.xaml.cs:94-103 | the loaded list names the current archive. If it already did, the list is unchanged; otherwise the current archive comes first, and the entries are exactly it plus the unmarked old ones |
| ResourceList.LoadResourcesIdempotent | GRFEditor/Tools/MapExtractor/MapExtractor.xaml.cs:94-103 | loading a loaded list changes nothing |
| ResourceList.LoadResourcesReplacesMarked | GRFEditor/Tools/MapExtractor/MapExtractor.xaml.cs:97-100 | when the current archive was missing, it appears exactly once, at index 0, no other entry carries the marker, and the rest keep their order |
| ResourceList.LoadResourceList | GRFEditor/Tools/MapExtractor/MapExtractor.xaml.cs:94-103 | the RemoveAll loop followed by Insert computes the loaded list |
| Extractor.RootsFor | GRFEditor/Tools/MapExtractor/MapExtractor.xaml.cs:262-299 | the roots requested for the opened file: its stem and extension fed to the switch of `_updateMapFiles`; properties in `Extractor.RootRequestsMatchFile` |
| Extractor.RootRequests | GRFEditor/Tools/MapExtractor/MapExtractor.xaml.cs:273-299 | a model or effect gives one root looked up in the opened file's directory; anything else gives two roots under `data\` |
| Extractor.RootRequestsMatchFile | GRFEditor/Tools/MapExtractor/MapExtractor.xaml.cs:262-299 | every root carries the opened file's stem and is checked exactly when it has the opened file's extension; a map's roots are its .gnd then its .rsw |
| Extractor.RootsBuiltAt | GRFEditor/Tools/MapExtractor/MapExtractor.xaml.cs:273-299 | each root of the tree is the node built for the request at its own position: named and resolved as requested, uniformly set to the request's state, and walked at every level (`Walk.Walked`); every root but the last is complete, and the last one too unless the walk was cancelled |
| Extractor.RootsBuiltAppend | GRFEditor/Tools/MapExtractor/MapExtractor.xaml.cs:286-298 | appending the node built for the next request extends the roots built so far, in request order |
| Extractor.RootsBuiltWeaken | GRFEditor/Tools/MapExtractor/MapExtractor.xaml.cs:286-298 | roots built completely also satisfy the rules of roots whose walk may have been cut |
| Extractor.BuiltSelectionResolved | GRFEditor/Tools/MapExtractor/MapExtractor.xaml.cs:214-231 | whatever check states the user sets on a built tree, every file the export plans from it is what the resolver the tree was built with finds at its relative path |
| Extractor.AttachBuilt | GRFEditor/Tools/MapExtractor/MapExtractor.xaml.cs:339-342 | appending the next requested root to the tree view keeps the forest sound and the roots in request order |
| Extractor.MapExtractor.constructor | GRFEditor/Tools/MapExtractor/MapExtractor.xaml.cs:42-47 | a new control has an empty tree, needs its archives loaded, and takes its folder from the opened file's directory |
| Extractor.MapExtractor.CheckParents | GRFEditor/Tools/MapExtractor/MapExtractor.xaml.cs:182-212 | the scan-and-update loop leaves the tree as the upward pass defines it, and nothing else changes |
| Extractor.MapExtractor.CheckBoxChanged | GRFEditor/Tools/MapExtractor/MapExtractor.xaml.cs:456-490 | the handler pushes the value into enabled children, cascading, then runs the upward pass; the forest stays sound |
| Extractor.MapExtractor.SetIsChecked | GRFEditor/Tools/MapExtractor/MapExtractor.xaml.cs:456-490 | setting an enabled box to a new value and raising its handler gives the handled tree; the forest stays sound |
| Extractor.MapExtractor.SelectRootFiles | GRFEditor/Tools/MapExtractor/MapExtractor.xaml.cs:492-537 | with nothing selected nothing changes; otherwise the tree becomes "select root files" of the selected node, and it stays sound |
| Extractor.MapExtractor.UpdateMapFiles | GRFEditor/Tools/MapExtractor/MapExtractor.xaml.cs:257-318 | cancelled at the first poll: one poll is made, the tree and flag stay and progress is set to 100. Otherwise progress goes -1 then 100, the archives count as reloaded, and the tree and poll count are exactly `Extractor.RootsFrom`'s for the opened file: the roots are built in order, each with its whole subtree walked (`Walk.Walked`). Unless the cancel predicate had turned true by the last poll, every requested root is present and every reference is followed; otherwise the walk is cut at one point in pre-order and a missing root means it was cancelled. With no cancel method nothing is cut |
| Extractor.MapExtractor.Report | GRFEditor/Tools/MapExtractor/MapExtractor.xaml.cs:263 | setting Progress records the value and changes nothing else |
| Extractor.MapExtractor.Rebuild | GRFEditor/Tools/MapExtractor/MapExtractor.xaml.cs:263-299 | the tree is replaced by exactly `Extractor.RootsFrom`'s roots, with its poll count: roots built in request order, complete unless cancelled by the last poll and with a missing root only when cancelled; progress is -1 and the reload flag is cleared |
| Extractor.MapExtractor.Install | GRFEditor/Tools/MapExtractor/MapExtractor.xaml.cs:265-271 | the cleared tree receives the built roots and the reload flag is cleared |
| Extractor.MapExtractor.Reload | GRFEditor/Tools/MapExtractor/MapExtractor.xaml.cs:163-172 | ignored while an operation runs, with no poll; otherwise the control takes the new archive and file. Cancelled at the first poll, the tree and reload flag stay and progress goes to 100; otherwise progress goes -1 then 100, the reload flag is cleared and the tree and poll count are exactly `Extractor.RootsFrom`'s for that file, complete unless cancelled by the last poll |
| Extractor.MapExtractor.Open | GRFEditor/Tools/MapExtractor/MapExtractor.xaml.cs:167-169 | the new archive and file are recorded, and the folder is the file's directory |
| Extractor.MapExtractor.OnResourcesModified | GRFEditor/Tools/MapExtractor/MapExtractor.xaml.cs:104-107 | after an edit of the resource list the archives are reloaded and every requested root is rebuilt |
| Extractor.MapExtractor.RunExport | GRFEditor/Tools/MapExtractor/MapExtractor.xaml.cs:214-246 | the planned files are the deduplicated pre-order selection. Every planned directory is created. Files are written up to the first failing one. Progress goes -1, then one step per file written, then 100. The destination becomes the first created directory only when every file was written. The tree is untouched |
| Extractor.MapExtractor.CreateDirectories | GRFEditor/Tools/MapExtractor/MapExtractor.xaml.cs:221-224 | after the loop every planned directory exists, and nothing else changed |
| Extractor.MapExtractor.Commit | GRFEditor/Tools/MapExtractor/MapExtractor.xaml.cs:229-238 | the written files, the reported progress and the new destination are stored |
| Extractor.MapExtractor.Export | GRFEditor/Tools/MapExtractor/MapExtractor.xaml.cs:149-152 | exports to the configured path when it overrides the default, otherwise to the archive's directory |
| Extractor.MapExtractor.ExportAt | GRFEditor/Tools/MapExtractor/MapExtractor.xaml.cs:154-161 | a dismissed folder dialog changes nothing, progress included; otherwise exports to the picked folder |
| Extractor.AddRoot | GRFEditor/Tools/MapExtractor/MapExtractor.xaml.cs:286-298 | a poll and then one root, exactly as `Extractor.AddRootFrom` defines the roots and the poll count: nothing is added once cancelled; otherwise the next requested root is appended as built, complete unless cancelled by the last poll. With no cancel method a root is always added |
| Extractor.BuildRoots | GRFEditor/Tools/MapExtractor/MapExtractor.xaml.cs:273-299 | the roots and the poll count are exactly `Extractor.RootsFrom`'s: the roots are built for a prefix of the requests, in order; unless the cancel predicate had turned true by the last poll every root is present and complete, otherwise only the last root may be cut short; with no cancel method for all of them |
| Extractor.BuildRoot | GRFEditor/Tools/MapExtractor/MapExtractor.xaml.cs:275-298 | the node and the poll count are exactly `Walk.WalkFrom`'s for the request: no node exactly when cancelled on entry; otherwise a sound node built for the request, with its whole subtree walked (`Walk.Walked`), complete unless the cancel predicate had turned true by the walk's last poll; with no cancel method a node is always given |
| Extractor.AddRootFrom | GRFEditor/Tools/MapExtractor/MapExtractor.xaml.cs:286-298 | the reference definition of one root: the poll before it and, unless that poll sees the cancel, `_addNode` for the request with the node appended; at least one poll |
| Extractor.RootsFrom | GRFEditor/Tools/MapExtractor/MapExtractor.xaml.cs:273-299 | the reference definition of the rebuild after the first poll: the first root, and for a map the second root unless the poll before the first root saw the cancel |
| Extractor.RootsFromUncancelled | GRFEditor/Tools/MapExtractor/MapExtractor.xaml.cs:273-299 | a rebuild whose cancel predicate had not turned true by its last poll builds the same roots with the same polls as one with a null cancel method |
| Extractor.AddRootFromUncancelled | GRFEditor/Tools/MapExtractor/MapExtractor.xaml.cs:286-298 | the same for one root |
| Extractor.WriteFiles | GRFEditor/Tools/MapExtractor/MapExtractor.xaml.cs:226-234 | the loop writes files up to the first that throws, leaves the file system as those writes define it, and reports one progress value per file written |
| Extractor.ScanResolvable | GRFEditor/Tools/MapExtractor/MapExtractor.xaml.cs:508-517 | the flag ends true exactly when every resolvable grandchild is checked |
| Extractor.SettleRoot | GRFEditor/Tools/MapExtractor/MapExtractor.xaml.cs:494-531 | the loop over the children computes the settled node of "select root files" |

## Left out

- WPF presentation and threading are not modelled: Dispatcher calls, the red brush of
  `_disableNode`, `IsExpanded` (:290-308), the quick preview, context menus, the right-click
  handler, `new Thread`, `lock` and `AsyncOperation`. Operations are sequential calls, and
  "an operation is running" is the `running` parameter of `Reload`.
- Drag and drop (:55-88), `OpeningService`, `PathRequest` and the "select in GRF/explorer"
  menu items are OS and UI I/O. `ExportAt` takes the folder the dialog returned as a parameter.
- `MultiGrfReader` is a parameter, not code. `Update`, the layering of archives and
  `GetData`/`FindTkPath` are abstracted into a resolver function from relative path to the
  winning archive and bytes. The reload flag is kept as a field.
- `TkPath.RelativePath` of the path `FindTkPath` returns is taken to be the relative path it
  was asked for. `MultiGrfReader` is not part of this model, so this is an assumption about it,
  and the output paths of the export (`Export.DistinctRelativePaths`) rest on it.
- The parsers `Rsm`, `Gnd`, `Rsw` and `Str` are uninterpreted functions from bytes to reference
  lists. `None` stands for the exception a parser throws.
- `File.WriteAllBytes` and `Directory.CreateDirectory` act on a map from path to bytes and a set
  of directories. A write throws when the resolver has no bytes or the path is in a `failing`
  set given by the caller. Directory creation is taken never to fail.
- `Paths.DirectoryName`, `Paths.Combine` and the extension helper model Windows path rules
  only as far as the extractor uses them. There is no normalisation, `..` handling or length
  limit. The extension test is a lower-cased suffix from the last dot, with the ASCII case
  mapping only. `StartsWith` in the resource list is ordinal prefix comparison, not culture-aware.
- Walk.AddNode: recursion depth is bounded by a `fuel` parameter; the code has no bound and
  no cycle check. With fuel 0 a resolvable node gets no children.
- Walk.AddNode: exceptions other than parse failures inside `_addNode` are not modelled.
- Walk.AddNode: the cancel predicate is modelled as turning true at some poll and staying
  true; a predicate that flips back is not modelled.
- Export.DistinctOutputPaths requires every selected relative path to be non-empty and not
  rooted. A rooted reference name replaces the destination in `Path.Combine`, so two
  different relative paths could then reach the same output path.
- Paths that differ only in letter case are different keys in the model's file system.
  Windows treats them as one file, so two selected resources whose relative paths differ
  only in case would overwrite one another; the model does not capture that.
- Extractor.MapExtractor.Rebuild, Extractor.MapExtractor.UpdateMapFiles and
  Extractor.MapExtractor.Reload return the number of cancel polls as a ghost value; the code
  has no such counter.
- The final cancel poll of `_updateMapFiles` (:306), which only guards the expansion of
  checked roots, is not counted: `IsExpanded` is not modelled.
- Paths.CombineSplits requires that the directory is not a bare UNC server (`\\server`).
  Joined with a name, such a directory gives a UNC root, whose directory is null.
- Paths.RootLength and Paths.DirectoryName apply the root rules to the path as given. The
  normalisation `Path.GetDirectoryName` does first is not modelled.
- A node's check box starts unchecked (`false`), the default of the check box control.
- Extractor.MapExtractor.UpdateMapFiles does not model the catch branch that sets
  `_requiresMetaGrfReload` back to true after an exception.
- Extractor.MapExtractor.UpdateMapFiles assigns the roots once, after they are built, instead
  of one `Items.Add` per root. A cancellation between the two roots of a map leaves the
  first root, as in the code.
- Check box events raised while the walk sets `IsChecked` are not modelled. The walk builds
  uniform subtrees, and on those the handlers change nothing (`Selection.ParentsQuiet`,
  `Selection.PushNoOp`).
- Extractor.MapExtractor.CheckBoxChanged models one handler that pushes the value, with the
  children's own handlers cascading down and one upward pass. The nested upward passes of
  the children's handlers are not run one by one: they re-run a pass that is idempotent
  (`Selection.ParentsIdempotent`).
- Extractor.MapExtractor.RunExport keeps the written files and the progress values of the
  write loop as values and stores them after the loop (`Extractor.MapExtractor.Commit`).
  The `Progress` field therefore shows only -1 and 100; the values in between are recorded
  in the ghost progress log.
- Extractor.MapExtractor.Export and Extractor.MapExtractor.ExportAt state the written count
  and the file system. Progress, directories and destination are stated by
  `Extractor.MapExtractor.RunExport`.
- `Progress` is a `float` in the code; the model uses exact reals.
- The order of a `HashSet` enumeration is taken as insertion order (first occurrence).
- `Dispose` and the `_openFolderCallback` run after an export are left out; they only
  release the reader and open a window.

=== FILE: export.dfy ===
/**
 * Export planning: the checked nodes in pre-order (_getSelectedNodes), their deduplication by
 * full path, the directories to create and the progress reported (_export).
 */
module Export {
  import opened Wrappers
  import opened Paths
  import opened Resources
  import opened Tree

  /** _getSelectedNodes(node): the node itself when checked, then its children's selections in order. */
  function Selected(n: Node): seq<TkPath>
    requires Sound(n)
    decreases n
  {
    (if n.checked == Some(true) then [n.resource.value] else []) + SelectedAll(n.children)
  }

  /** _getSelectedNodes over a list of nodes (the roots when called with null), concatenated in order. */
  function SelectedAll(ns: seq<Node>): seq<TkPath>
    requires AllSound(ns)
    decreases ns
  {
    if ns == [] then [] else Selected(ns[0]) + SelectedAll(ns[1..])
  }

  lemma {:induction false} SelectedAllAppend(ns: seq<Node>, n: Node)
    requires AllSound(ns) && Sound(n)
    ensures AllSound(ns + [n]) && SelectedAll(ns + [n]) == SelectedAll(ns) + Selected(n)
    decreases |ns|
  {
    if ns == [] {
      assert [n][1..] == [];
    } else {
      assert (ns + [n])[1..] == ns[1..] + [n];
      SelectedAllAppend(ns[1..], n);
    }
  }

  /** The recursive collection with its AddRange loop; the result is the pre-order selection. */
  method SelectedNodes(n: Node) returns (paths: seq<TkPath>)
    requires Sound(n)
    ensures paths == Selected(n)
    decreases n
  {
    paths := [];
    if n.checked == Some(true) {
      paths := paths + [n.resource.value];
    }
    var k := 0;
    while k < |n.children|
      invariant 0 <= k <= |n.children|
      invariant paths == (if n.checked == Some(true) then [n.resource.value] else []) + SelectedAll(n.children[..k])
    {
      var sub := SelectedNodes(n.children[k]);
      SelectedAllAppend(n.children[..k], n.children[k]);
      assert n.children[..k + 1] == n.children[..k] + [n.children[k]];
      paths := paths + sub;
      k := k + 1;
    }
    assert n.children[..k] == n.children;
  }

  /** _getSelectedNodes(null): every root's selection, in root order. */
  method SelectedNodesAll(roots: seq<Node>) returns (paths: seq<TkPath>)
    requires AllSound(roots)
    ensures paths == SelectedAll(roots)
  {
    paths := [];
    var k := 0;
    while k < |roots|
      invariant 0 <= k <= |roots|
      invariant paths == SelectedAll(roots[..k])
    {
      var sub := SelectedNodes(roots[k]);
      SelectedAllAppend(roots[..k], roots[k]);
      assert roots[..k + 1] == roots[..k] + [roots[k]];
      paths := paths + sub;
      k := k + 1;
    }
    assert roots[..k] == roots;
  }

  lemma {:induction false} SelectedAllContains(ns: seq<Node>, k: nat, x: TkPath)
    requires AllSound(ns) && k < |ns| && x in Selected(ns[k])
    ensures x in SelectedAll(ns)
    decreases k
  {
    if k > 0 {
      SelectedAllContains(ns[1..], k - 1, x);
    }
  }

  /** Every checked node's resource is selected (checked nodes are never missing ones). */
  lemma {:induction false} SelectedComplete(ns: seq<Node>, p: Path)
    requires AllSound(ns) && ValidPath(ns, p) && At(ns, p).checked == Some(true)
    ensures At(ns, p).resource.Some? && At(ns, p).resource.value in SelectedAll(ns)
    decreases p
  {
    SoundAt(ns, p);
    var n := ns[p[0]];
    if |p| > 1 {
      SelectedComplete(n.children, p[1..]);
    }
    SelectedAllContains(ns, p[0], At(ns, p).resource.value);
  }

  /** Every selected resource belongs to a checked node of the forest. */
  lemma {:induction false} SelectedOnlyChecked(ns: seq<Node>, x: TkPath) returns (p: Path)
    requires AllSound(ns) && x in SelectedAll(ns)
    ensures ValidPath(ns, p) && At(ns, p).checked == Some(true) && At(ns, p).resource == Some(x)
    decreases ns
  {
    var n := ns[0];
    if x in Selected(n) {
      if n.checked == Some(true) && x == n.resource.value {
        p := [0];
      } else {
        var q := SelectedOnlyChecked(n.children, x);
        p := [0] + q;
        assert p[1..] == q;
      }
    } else {
      var q := SelectedOnlyChecked(ns[1..], x);
      p := [q[0] + 1] + q[1..];
      assert p[1..] == q[1..];
    }
  }

  // ---------------------------------------------------------------------------
  // Planning the copy
  // ---------------------------------------------------------------------------

  /** The files to write: the selection grouped by full path, first of each group. */
  function ExportFiles(selection: seq<TkPath>): seq<TkPath> {
    Distinct(selection)
  }

  /** destination combined with a file's relative path. */
  function OutputPath(destination: string, f: TkPath): string {
    Combine(destination, f.relativePath)
  }

  /** The distinct destination + dirname(relativePath) values, in order of first use. */
  function DirectoriesToCreate(destination: string, files: seq<TkPath>): seq<string> {
    Distinct(seq(|files|, k requires 0 <= k < |files| => Combine(destination, DirectoryName(files[k].relativePath))))
  }

  /**
   * Every selected resource is written exactly once, however many parents share it, and
   * nothing else is written.
   */
  lemma ExportedOnce(selection: seq<TkPath>, x: TkPath)
    ensures x in ExportFiles(selection) <==> x in selection
    ensures x in selection ==> multiset(ExportFiles(selection))[x] == 1
  {
    var files := ExportFiles(selection);
    DistinctMembers(selection);
    DistinctSpec(selection);
    if x in selection {
      var i :| 0 <= i < |files| && files[i] == x;
      OnlyOnce(files, i);
    }
  }

  lemma {:induction false} OnlyOnce<T>(s: seq<T>, i: nat)
    requires NoDup(s) && i < |s|
    ensures multiset(s)[s[i]] == 1
    decreases |s|
  {
    if i == |s| - 1 {
      assert s == s[..i] + [s[i]];
      assert s[i] !in s[..i];
      assert multiset(s[..i])[s[i]] == 0;
    } else {
      assert s == s[..|s| - 1] + [s[|s| - 1]];
      OnlyOnce(s[..|s| - 1], i);
    }
  }

  /** The directory of every file written is among those created. */
  lemma DirectoryCreatedForEachFile(destination: string, files: seq<TkPath>, i: nat)
    requires i < |files|
    ensures Combine(destination, DirectoryName(files[i].relativePath)) in DirectoriesToCreate(destination, files)
  {
    var all := seq(|files|, k requires 0 <= k < |files| => Combine(destination, DirectoryName(files[k].relativePath)));
    DistinctMembers(all);
    assert all[i] in all;
  }

  /** Every resource recorded by one walk is what the resolver finds at its relative path. */
  predicate ResolvedBy(res: Resolver, selection: seq<TkPath>) {
    forall k :: 0 <= k < |selection| ==> FindTkPath(res, selection[k].relativePath) == Some(selection[k])
  }

  /**
   * With one resolver, grouping by full path is grouping by relative path: no two files
   * to write share a relative path.
   */
  lemma DistinctRelativePaths(res: Resolver, selection: seq<TkPath>)
    requires ResolvedBy(res, selection)
    ensures var files := ExportFiles(selection);
      forall i, j :: 0 <= i < j < |files| ==> files[i].relativePath != files[j].relativePath
  {
    var files := ExportFiles(selection);
    DistinctSpec(selection);
    forall i, j | 0 <= i < j < |files| ensures files[i].relativePath != files[j].relativePath {
      var a :| 0 <= a < |selection| && selection[a] == files[i];
      var b :| 0 <= b < |selection| && selection[b] == files[j];
    }
  }

  /**
   * When every relative path is a non-empty path below the destination (not rooted), no two
   * files to write share an output path, so no output file is written twice.
   */
  lemma DistinctOutputPaths(res: Resolver, selection: seq<TkPath>, destination: string)
    requires ResolvedBy(res, selection)
    requires forall k :: 0 <= k < |selection| ==>
      selection[k].relativePath != [] && !IsRooted(selection[k].relativePath)
    ensures var files := ExportFiles(selection);
      forall i, j :: 0 <= i < j < |files| ==> OutputPath(destination, files[i]) != OutputPath(destination, files[j])
  {
    var files := ExportFiles(selection);
    DistinctRelativePaths(res, selection);
    DistinctSpec(selection);
    forall i, j | 0 <= i < j < |files| ensures OutputPath(destination, files[i]) != OutputPath(destination, files[j]) {
      var a :| 0 <= a < |selection| && selection[a] == files[i];
      var b :| 0 <= b < |selection| && selection[b] == files[j];
      if OutputPath(destination, files[i]) == OutputPath(destination, files[j]) {
        CombineInjective(destination, files[i].relativePath, files[j].relativePath);
      }
    }
  }

  /** The selection of a forest whose resources resolve is resolved by the same resolver. */
  lemma SelectedResolved(res: Resolver, ns: seq<Node>)
    requires AllSound(ns) && AllResolved(res, ns)
    ensures ResolvedBy(res, SelectedAll(ns))
  {
    var sel := SelectedAll(ns);
    forall k | 0 <= k < |sel| ensures FindTkPath(res, sel[k].relativePath) == Some(sel[k]) {
      var p := SelectedOnlyChecked(ns, sel[k]);
      ResolvedAt(res, ns, p);
    }
  }

  // ---------------------------------------------------------------------------
  // Writing and progress
  // ---------------------------------------------------------------------------

  /**
   * Whether writing file f throws: File.WriteAllBytes rejects the null that GetData returns for
   * a path no archive holds, and the file system may refuse an output path (`failing`).
   */
  predicate WriteFails(res: Resolver, destination: string, failing: set<string>, f: TkPath) {
    GetData(res, f.relativePath).None? || OutputPath(destination, f) in failing
  }

  /** The number of files written before the first exception aborts the loop. */
  function WrittenCount(res: Resolver, destination: string, failing: set<string>, files: seq<TkPath>): (k: nat)
    ensures k <= |files|
    ensures k < |files| ==> WriteFails(res, destination, failing, files[k])
  {
    if files == [] then 0
    else if WriteFails(res, destination, failing, files[0]) then 0
    else 1 + WrittenCount(res, destination, failing, files[1..])
  }

  /** Every file before the stopping point is written without an exception. */
  lemma {:induction false} WrittenBeforeFailure(res: Resolver, destination: string, failing: set<string>, files: seq<TkPath>, i: nat)
    requires i < WrittenCount(res, destination, failing, files)
    ensures !WriteFails(res, destination, failing, files[i])
    decreases i
  {
    if i > 0 {
      WrittenBeforeFailure(res, destination, failing, files[1..], i - 1);
    }
  }

  /** Standing at file k, not past the stopping point: the stopping point is k exactly when file k fails. */
  lemma WrittenCountAt(res: Resolver, destination: string, failing: set<string>, files: seq<TkPath>, k: nat)
    requires k < |files| && k <= WrittenCount(res, destination, failing, files)
    ensures WriteFails(res, destination, failing, files[k]) <==> WrittenCount(res, destination, failing, files) == k
  {
    if k < WrittenCount(res, destination, failing, files) {
      WrittenBeforeFailure(res, destination, failing, files, k);
    }
  }

  /**
   * The file system after writing the first n of `files` in order, each with the bytes the
   * resolver holds. A file without bytes leaves the file system as it is; the export loop
   * stops before one.
   */
  function WriteAll(fs: map<string, Bytes>, res: Resolver, destination: string, files: seq<TkPath>, n: nat): map<string, Bytes>
    requires n <= |files|
  {
    if n == 0 then fs
    else
      var before := WriteAll(fs, res, destination, files, n - 1);
      match GetData(res, files[n - 1].relativePath)
      case Some(data) => before[OutputPath(destination, files[n - 1]) := data]
      case None => before
  }

  /** Writing file n of `files`, when the resolver holds it, stores its bytes at its output path. */
  lemma WriteAllNext(fs: map<string, Bytes>, res: Resolver, destination: string, files: seq<TkPath>, n: nat)
    requires n < |files| && GetData(res, files[n].relativePath).Some?
    ensures WriteAll(fs, res, destination, files, n + 1) ==
            WriteAll(fs, res, destination, files, n)[OutputPath(destination, files[n]) := GetData(res, files[n].relativePath).value]
  {
  }

  /** A path none of the first n files targets keeps what it held. */
  lemma {:induction false} WriteAllUntouched(fs: map<string, Bytes>, res: Resolver, destination: string, files: seq<TkPath>, n: nat, path: string)
    requires n <= |files|
    requires forall i :: 0 <= i < n ==> OutputPath(destination, files[i]) != path
    ensures path in WriteAll(fs, res, destination, files, n) <==> path in fs
    ensures path in fs ==> WriteAll(fs, res, destination, files, n)[path] == fs[path]
  {
    if n > 0 {
      WriteAllUntouched(fs, res, destination, files, n - 1, path);
      var before := WriteAll(fs, res, destination, files, n - 1);
      assert OutputPath(destination, files[n - 1]) != path;
      if GetData(res, files[n - 1].relativePath).Some? {
        WriteAllNext(fs, res, destination, files, n - 1);
      }
    }
  }

  /** The output path of files[i] holds its bytes, unless a later one of the first n files targets the same path. */
  lemma {:induction false} WriteAllWritten(fs: map<string, Bytes>, res: Resolver, destination: string, files: seq<TkPath>, n: nat, i: nat)
    requires i < n <= |files| && GetData(res, files[i].relativePath).Some?
    requires forall j :: i < j < n ==> OutputPath(destination, files[j]) != OutputPath(destination, files[i])
    ensures OutputPath(destination, files[i]) in WriteAll(fs, res, destination, files, n)
    ensures WriteAll(fs, res, destination, files, n)[OutputPath(destination, files[i])] == GetData(res, files[i].relativePath).value
  {
    if i < n - 1 {
      WriteAllWritten(fs, res, destination, files, n - 1, i);
    }
  }

  /** Progress after the file at `index` of `count` has been written: (index + 1) / count * 100. */
  function ProgressAfter(index: nat, count: nat): real
    requires index < count
  {
    (index + 1) as real / count as real * 100.0
  }

  /** Progress rises strictly with every file written, stays within (0, 100] and reaches 100 with the last. */
  lemma ProgressRises(i: nat, j: nat, count: nat)
    requires i < j < count
    ensures 0.0 < ProgressAfter(i, count) < ProgressAfter(j, count) <= 100.0
    ensures ProgressAfter(count - 1, count) == 100.0
  {
    var n := count as real;
    assert (i + 1) as real < (j + 1) as real <= n;
    assert (i + 1) as real / n < (j + 1) as real / n;
    assert (j + 1) as real / n <= 1.0;
  }

  /** The values progress takes while the first k of count files are written. */
  function ProgressSteps(k: nat, count: nat): (r: seq<real>)
    requires k <= count
    ensures |r| == k
  {
    if k == 0 then [] else ProgressSteps(k - 1, count) + [ProgressAfter(k - 1, count)]
  }

  /** A sequence whose i-th value is the progress after file i is the sequence of progress steps. */
  lemma {:induction false} ProgressStepsOf(r: seq<real>, count: nat)
    requires |r| <= count
    requires forall i :: 0 <= i < |r| ==> r[i] == ProgressAfter(i, count)
    ensures r == ProgressSteps(|r|, count)
    decreases |r|
  {
    if r != [] {
      var init := r[..|r| - 1];
      assert forall i :: 0 <= i < |init| ==> init[i] == r[i];
      ProgressStepsOf(init, count);
      assert r == init + [r[|r| - 1]];
    }
  }

  /** The i-th value reported is the progress after file i. */
  lemma {:induction false} ProgressStepsAt(k: nat, count: nat, i: nat)
    requires i < k <= count
    ensures ProgressSteps(k, count)[i] == ProgressAfter(i, count)
  {
    if i < k - 1 {
      ProgressStepsAt(k - 1, count, i);
    }
  }

  /** Progress reported during an export rises strictly, stays within (0, 100], and ends at 100 when every file was written. */
  lemma ProgressStepsRise(k: nat, count: nat)
    requires k <= count
    ensures forall i, j :: 0 <= i < j < k ==> ProgressSteps(k, count)[i] < ProgressSteps(k, count)[j]
    ensures forall i :: 0 <= i < k ==> 0.0 < ProgressSteps(k, count)[i] <= 100.0
    ensures k == count > 0 ==> ProgressSteps(k, count)[k - 1] == 100.0
  {
    var r := ProgressSteps(k, count);
    forall i, j | 0 <= i < j < k ensures r[i] < r[j] {
      ProgressStepsAt(k, count, i);
      ProgressStepsAt(k, count, j);
      ProgressRises(i, j, count);
    }
    forall i | 0 <= i < k ensures 0.0 < r[i] <= 100.0 {
      ProgressStepsAt(k, count, i);
      if i < count - 1 {
        ProgressRises(i, count - 1, count);
      } else {
        ProgressLast(count);
      }
    }
    if k == count > 0 {
      ProgressStepsAt(k, count, k - 1);
      ProgressLast(count);
    }
  }

  /** The last file's progress is 100, also when there is only one file (a helper for ProgressStepsRise). */
  lemma ProgressLast(count: nat)
    requires count > 0
    ensures ProgressAfter(count - 1, count) == 100.0
  {
  }
}

=== FILE: extractor.dfy ===
/**
 * The map extractor control (class MapExtractor): its dependency forest, progress and
 * export destination, updated in place by the tree rebuild, the check box handlers,
 * "select root files" and the export.
 */
module Extractor {
  import opened Wrappers
  import opened Paths
  import opened Resources
  import opened Tree
  import opened Walk
  import opened Selection
  import opened Export

  /** A root the rebuild adds: its file name, the location it is looked up in and its initial check state. */
  datatype RootRequest = RootRequest(name: string, location: string, isChecked: bool)

  /** Folder of the map's .gnd and .rsw files. */
  const DataDirectory := "data\\"

  /**
   * The roots _updateMapFiles adds for an opened file with stem mapFile and extension ext: a
   * model or effect opened directly is its own single, checked root, looked up next to the
   * opened file; anything else is taken as a map, whose .gnd and .rsw roots are checked only
   * when that is the kind of file opened.
   */
  function RootRequests(mapFile: string, ext: string, grfPath: string): (r: seq<RootRequest>)
    ensures 1 <= |r| <= 2
    ensures |r| == 1 <==> ext in {".rsm", ".rsm2", ".str"}
    ensures |r| == 1 ==> r[0].location == grfPath
    ensures |r| == 2 ==> r[0].location == DataDirectory && r[1].location == DataDirectory
  {
    if ext == ".rsm" || ext == ".rsm2" || ext == ".str" then [RootRequest(mapFile + ext, grfPath, true)]
    else [RootRequest(mapFile + ".gnd", DataDirectory, ext == ".gnd"),
          RootRequest(mapFile + ".rsw", DataDirectory, ext == ".rsw")]
  }

  /** The roots requested for the opened file fileName. */
  function RootsFor(fileName: string, grfPath: string): seq<RootRequest> {
    RootRequests(FileNameWithoutExtension(fileName), Extension(fileName), grfPath)
  }

  /** The root carries the opened file's name and is checked exactly when it is the kind of file opened. */
  predicate MatchesFile(q: RootRequest, fileName: string) {
    FileNameWithoutExtension(q.name) == FileNameWithoutExtension(fileName) &&
    (q.isChecked <==> Extension(q.name) == Extension(fileName))
  }

  /** Every root matches the opened file; a map's two roots are its .gnd and its .rsw. */
  lemma RootRequestsMatchFile(fileName: string, grfPath: string)
    ensures forall k :: 0 <= k < |RootsFor(fileName, grfPath)| ==> MatchesFile(RootsFor(fileName, grfPath)[k], fileName)
    ensures var r := RootsFor(fileName, grfPath);
      |r| == 2 ==> Extension(r[0].name) == ".gnd" && Extension(r[1].name) == ".rsw"
  {
    var mapFile := FileNameWithoutExtension(fileName);
    var ext := Extension(fileName);
    var r := RootsFor(fileName, grfPath);
    RootRequestsShape(mapFile, ext, grfPath);
    assert |r| == 1 || |r| == 2;
    KnownExtensionsPlain();
    if |r| == 1 {
      AppendedMatches(fileName, ext, r[0]);
    } else {
      AppendedMatches(fileName, ".gnd", r[0]);
      AppendedMatches(fileName, ".rsw", r[1]);
    }
    forall k | 0 <= k < |r| ensures MatchesFile(r[k], fileName) {
      if k != 0 {
        assert k == 1;
      }
    }
  }

  /** Unfolds RootRequests into its two cases (a helper for RootRequestsMatchFile). */
  lemma RootRequestsShape(mapFile: string, ext: string, grfPath: string)
    ensures var r := RootRequests(mapFile, ext, grfPath);
      (|r| == 1 ==> (ext == ".rsm" || ext == ".rsm2" || ext == ".str") && r[0] == RootRequest(mapFile + ext, grfPath, true)) &&
      (|r| == 2 ==> r[0] == RootRequest(mapFile + ".gnd", DataDirectory, ext == ".gnd") &&
                    r[1] == RootRequest(mapFile + ".rsw", DataDirectory, ext == ".rsw"))
  {
  }

  /** A root named after the file's stem and a known extension matches that file. */
  lemma AppendedMatches(fileName: string, ext: string, q: RootRequest)
    requires PlainExtension(ext) && q.name == FileNameWithoutExtension(fileName) + ext
    requires q.isChecked <==> ext == Extension(fileName)
    ensures MatchesFile(q, fileName) && Extension(q.name) == ext
  {
    ExtensionOfAppended(FileNameWithoutExtension(fileName), ext);
  }

  /** The extensions the roots are named with are plain lower-case ones (a helper for RootRequestsMatchFile). */
  lemma KnownExtensionsPlain()
    ensures PlainExtension(".rsm") && PlainExtension(".rsm2") && PlainExtension(".str")
    ensures PlainExtension(".gnd") && PlainExtension(".rsw")
  {
  }

  /**
   * The root n is what the walk builds for the request q, at every level the fuel reaches:
   * complete (every reference followed) when the walk was not cancelled, otherwise cut at
   * one point in pre-order.
   */
  predicate Built(res: Resolver, parsers: Parsers, n: Node, q: RootRequest, fuel: nat, complete: bool) {
    n.name == q.name &&
    n.resource == FindTkPath(res, Combine(q.location, q.name)) &&
    Uniform(n, q.isChecked) &&
    (n.resource.Some? ==> n.checked == Some(q.isChecked)) &&
    Walked(res, parsers, n, q.location, q.isChecked, fuel, complete)
  }

  /**
   * The roots are built, in order, for a prefix of the requests (a cancellation may cut the
   * list short); every root but the last is complete, and the last one is when `complete` holds.
   */
  predicate RootsBuilt(res: Resolver, parsers: Parsers, roots: seq<Node>, requests: seq<RootRequest>,
                      fuel: nat, complete: bool)
    decreases |roots|
  {
    |roots| <= |requests| &&
    (roots == [] ||
     (Built(res, parsers, roots[0], requests[0], fuel, complete || |roots| > 1) &&
      RootsBuilt(res, parsers, roots[1..], requests[1..], fuel, complete)))
  }

  /** Each root is built for the request at its own position, completely unless it is the last. */
  lemma {:induction false} RootsBuiltAt(res: Resolver, parsers: Parsers, roots: seq<Node>, requests: seq<RootRequest>,
                                           fuel: nat, complete: bool, k: nat)
    requires RootsBuilt(res, parsers, roots, requests, fuel, complete) && k < |roots|
    ensures Built(res, parsers, roots[k], requests[k], fuel, complete || k < |roots| - 1)
    decreases k
  {
    if k == 0 {
      assert (complete || |roots| > 1) == (complete || k < |roots| - 1);
    } else {
      var rest := roots[1..];
      assert |rest| == |roots| - 1 && rest[k - 1] == roots[k] && requests[1..][k - 1] == requests[k];
      assert (complete || k - 1 < |rest| - 1) == (complete || k < |roots| - 1);
      RootsBuiltAt(res, parsers, rest, requests[1..], fuel, complete, k - 1);
    }
  }

  /** A root appended after complete roots is built for the next request. */
  lemma {:induction false} RootsBuiltAppend(res: Resolver, parsers: Parsers, roots: seq<Node>, requests: seq<RootRequest>,
                                               fuel: nat, complete: bool, n: Node)
    requires RootsBuilt(res, parsers, roots, requests, fuel, true) && |roots| < |requests|
    requires Built(res, parsers, n, requests[|roots|], fuel, complete)
    ensures RootsBuilt(res, parsers, roots + [n], requests, fuel, complete)
    decreases |roots|
  {
    var r := roots + [n];
    if roots == [] {
      assert r[1..] == [];
    } else {
      assert r[0] == roots[0] && r[1..] == roots[1..] + [n];
      assert requests[1..][|roots[1..]|] == requests[|roots|];
      RootsBuiltAppend(res, parsers, roots[1..], requests[1..], fuel, complete, n);
    }
  }

  /** Complete roots are in particular roots that may have been cut. */
  lemma {:induction false} RootsBuiltWeaken(res: Resolver, parsers: Parsers, roots: seq<Node>, requests: seq<RootRequest>,
                                               fuel: nat)
    requires RootsBuilt(res, parsers, roots, requests, fuel, true)
    ensures RootsBuilt(res, parsers, roots, requests, fuel, false)
    decreases |roots|
  {
    if |roots| == 1 {
      WalkedWeaken(res, parsers, roots[0], requests[0].location, requests[0].isChecked, fuel);
    } else if |roots| > 1 {
      RootsBuiltWeaken(res, parsers, roots[1..], requests[1..], fuel);
    }
  }

  /**
   * The files an export plans from a built tree, after any changes of check states, are
   * what the resolver the tree was built with finds at their relative paths.
   */
  lemma BuiltSelectionResolved(res: Resolver, parsers: Parsers, roots: seq<Node>, requests: seq<RootRequest>,
                               fuel: nat, complete: bool, ms: seq<Node>)
    requires RootsBuilt(res, parsers, roots, requests, fuel, complete)
    requires AllSound(ms) && SameShapeAll(roots, ms)
    ensures ResolvedBy(res, SelectedAll(ms))
  {
    forall k | 0 <= k < |ms| ensures Resolved(res, ms[k]) {
      RootsBuiltAt(res, parsers, roots, requests, fuel, complete, k);
      WalkedResolved(res, parsers, roots[k], requests[k].location, requests[k].isChecked, fuel, complete || k < |roots| - 1);
      ResolvedShape(res, roots[k], ms[k]);
    }
    SelectedResolved(res, ms);
  }

  /** The tree view's items after Items.Add of the node _addNode created, if it created one. */
  function Attach(roots: seq<Node>, r: Option<Node>): seq<Node> {
    if r.Some? then roots + [r.value] else roots
  }

  /** Attaching the next requested root keeps the forest sound and the roots built in request order. */
  lemma AttachBuilt(res: Resolver, parsers: Parsers, roots: seq<Node>, requests: seq<RootRequest>,
                    fuel: nat, complete: bool, r: Option<Node>)
    requires AllSound(roots) && RootsBuilt(res, parsers, roots, requests, fuel, true) && |roots| < |requests|
    requires r.Some? ==> Sound(r.value) && Built(res, parsers, r.value, requests[|roots|], fuel, complete)
    ensures var a := Attach(roots, r);
      AllSound(a) && RootsBuilt(res, parsers, a, requests, fuel, complete) &&
      |a| == |roots| + (if r.Some? then 1 else 0) && a[..|roots|] == roots
  {
    var a := Attach(roots, r);
    assert a[..|roots|] == roots;
    if r.Some? {
      AllSoundAppend(roots, r.value);
      RootsBuiltAppend(res, parsers, roots, requests, fuel, complete, r.value);
    } else if !complete {
      RootsBuiltWeaken(res, parsers, roots, requests, fuel);
    }
  }

  /**
   * The control. The archives it reads through are the resolver passed to each operation;
   * `files` and `directories` stand for the part of the file system the export writes.
   */
  class MapExtractor {
    /** The tree view's items. */
    var roots: seq<Node>
    var progress: real
    /** Every value progress has taken, in order. */
    ghost var progressLog: seq<real>
    var destinationPath: string
    var requiresMetaGrfReload: bool
    var grfName: string
    var fileName: string
    var grfPath: string
    var files: map<string, Bytes>
    var directories: set<string>

    predicate Valid()
      reads this`roots
    {
      AllSound(roots)
    }

    /** A control for the file opened from the archive named grfName; the tree is built by UpdateMapFiles. */
    constructor(grfName: string, fileName: string, files: map<string, Bytes>, directories: set<string>)
      ensures Valid() && roots == []
      ensures this.grfName == grfName && this.fileName == fileName && grfPath == DirectoryName(fileName)
      ensures requiresMetaGrfReload
      ensures this.files == files && this.directories == directories
      ensures progressLog == []
    {
      roots := [];
      progress := 0.0;
      progressLog := [];
      destinationPath := "";
      requiresMetaGrfReload := true;
      this.grfName := grfName;
      this.fileName := fileName;
      grfPath := DirectoryName(fileName);
      this.files := files;
      this.directories := directories;
    }

    /**
     * _checkParents(item, v) for the item at p: scans the parent's children for an enabled one
     * not holding v, updates the parent and goes on upwards from it.
     */
    method CheckParents(p: Path, v: bool)
      requires ValidPath(roots, p)
      modifies this
      ensures roots == Parents(old(roots), p, v)
      ensures progress == old(progress) && progressLog == old(progressLog) && destinationPath == old(destinationPath)
      ensures requiresMetaGrfReload == old(requiresMetaGrfReload) && grfName == old(grfName)
      ensures fileName == old(fileName) && grfPath == old(grfPath)
      ensures files == old(files) && directories == old(directories)
      decreases |p|
    {
      if |p| == 1 {
        return;
      }
      ParentPath(roots, p);
      var q := p[..|p| - 1];
      var parent := At(roots, q);
      var allChildrenEqualValue := true;
      var k := 0;
      while k < |parent.children|
        invariant 0 <= k <= |parent.children|
        invariant AllEnabledEqual(parent.children[..k], v)
        invariant allChildrenEqualValue
      {
        var child := parent.children[k];
        if child.enabled && child.checked != Some(v) {
          allChildrenEqualValue := false;
          break;
        }
        k := k + 1;
      }
      assert allChildrenEqualValue ==> parent.children[..k] == parent.children;
      assert allChildrenEqualValue <==> AllEnabledEqual(parent.children, v);
      if allChildrenEqualValue {
        ReplaceAtSelf(roots, q, parent.(checked := Some(v)));
        roots := SetCheckedAt(roots, q, Some(v));
        CheckParents(q, v);
      } else if parent.checked != Some(v) {
        ReplaceAtSelf(roots, q, parent.(checked := None));
        roots := SetCheckedAt(roots, q, None);
        CheckParents(q, v);
      }
    }
  
    /**
     * _checkBox_Checked (v = true) and _checkBox_Unchecked (v = false), raised once the box of
     * the node at p holds v: every enabled child receives v, cascading through the children's
     * own handlers, and the upward pass runs from p.
     */
    method CheckBoxChanged(p: Path, v: bool)
      requires Valid() && ValidPath(roots, p) && At(roots, p).checked == Some(v)
      modifies this
      ensures Valid()
      ensures roots == Handled(old(roots), p, v)
      ensures progress == old(progress) && progressLog == old(progressLog) && destinationPath == old(destinationPath)
      ensures requiresMetaGrfReload == old(requiresMetaGrfReload) && grfName == old(grfName)
      ensures fileName == old(fileName) && grfPath == old(grfPath)
      ensures files == old(files) && directories == old(directories)
    {
      HandledSound(roots, p, v);
      var item := At(roots, p);
      ReplaceAtSelf(roots, p, Push(item, v));
      roots := ReplaceAt(roots, p, Push(item, v));
      CheckParents(p, v);
    }

    /** The user sets the enabled check box at p to v: the box changes, then its handler runs. */
    method SetIsChecked(p: Path, v: bool)
      requires Valid() && ValidPath(roots, p) && At(roots, p).enabled && At(roots, p).checked != Some(v)
      modifies this
      ensures Valid()
      ensures ValidPath(SetCheckedAt(old(roots), p, Some(v)), p)
      ensures roots == Handled(SetCheckedAt(old(roots), p, Some(v)), p, v)
      ensures progress == old(progress) && progressLog == old(progressLog) && destinationPath == old(destinationPath)
      ensures requiresMetaGrfReload == old(requiresMetaGrfReload) && grfName == old(grfName)
      ensures fileName == old(fileName) && grfPath == old(grfPath)
      ensures files == old(files) && directories == old(directories)
    {
      var item := At(roots, p);
      SoundAt(roots, p);
      ReplaceSound(roots, p, item.(checked := Some(v)));
      ReplaceAtSelf(roots, p, item.(checked := Some(v)));
      roots := SetCheckedAt(roots, p, Some(v));
      CheckBoxChanged(p, v);
    }
  
    /**
     * _menuItemsSelectRootFiles_Click on the tree view's selected item (None when nothing is
     * selected). Boxes are set with the Checked handler detached, so nothing cascades down;
     * the upward pass runs at the end when the item ends checked.
     */
    method SelectRootFiles(selected: Option<Path>)
      requires Valid() && (selected.Some? ==> ValidPath(roots, selected.value))
      modifies this
      ensures Valid()
      ensures selected.None? ==> roots == old(roots)
      ensures selected.Some? ==> roots == Selection.SelectRootFiles(old(roots), selected.value)
      ensures progress == old(progress) && progressLog == old(progressLog) && destinationPath == old(destinationPath)
      ensures requiresMetaGrfReload == old(requiresMetaGrfReload) && grfName == old(grfName)
      ensures fileName == old(fileName) && grfPath == old(grfPath)
      ensures files == old(files) && directories == old(directories)
    {
      if selected.None? {
        return;
      }
      var p := selected.value;
      SelectRootFilesSound(roots, p);
      var t := SettleRoot(At(roots, p));
      ReplaceAtSelf(roots, p, t);
      roots := ReplaceAt(roots, p, t);
      if t.checked == Some(true) {
        CheckParents(p, true);
      }
    }
  
    /**
     * _updateMapFiles: after the first cancel poll the tree is cleared and rebuilt from the
     * roots RootRequests names, each preceded by a poll; progress is -1 while it runs and 100
     * at the end, whether it completed or was cancelled.
     */
    method UpdateMapFiles(res: Resolver, parsers: Parsers, cancel: Cancel, fuel: nat) returns (ghost polls: nat)
      requires Valid()
      modifies this
      ensures Valid()
      ensures progress == 100.0
      // cancelled before anything was done
      ensures Cancelled(cancel, 0) ==> roots == old(roots) && requiresMetaGrfReload == old(requiresMetaGrfReload) &&
                                       progressLog == old(progressLog) + [100.0]
      // otherwise the tree and the polls made are those of the reference definition of the rebuild
      ensures Cancelled(cancel, 0) ==> polls == 1
      ensures !Cancelled(cancel, 0) ==> (roots, polls) == RootsFrom(res, parsers, cancel, RootsFor(old(fileName), old(grfPath)), fuel)
      ensures !Cancelled(cancel, 0) ==> !requiresMetaGrfReload && progressLog == old(progressLog) + [-1.0, 100.0] &&
                                        RootsBuilt(res, parsers, roots, RootsFor(old(fileName), old(grfPath)), fuel, !Cancelled(cancel, polls))
      // a requested root is missing only when the cancel predicate turned true
      ensures |roots| < |RootsFor(old(fileName), old(grfPath))| ==> Cancelled(cancel, polls)
      // never cancelled: every requested root is there
      ensures cancel == Never ==> |roots| == |RootsFor(old(fileName), old(grfPath))|
      ensures destinationPath == old(destinationPath) && grfName == old(grfName)
      ensures fileName == old(fileName) && grfPath == old(grfPath)
      ensures files == old(files) && directories == old(directories)
    {
      var requests := RootsFor(fileName, grfPath);
      polls := 1;
      if !Cancelled(cancel, 0) {
        polls := Rebuild(res, parsers, cancel, requests, fuel);
      }
      Report(100.0);
    }

    /** Sets Progress, which the window shows; the log records every value it takes. */
    method Report(value: real)
      modifies this`progress, this`progressLog
      ensures progress == value && progressLog == old(progressLog) + [value]
      ensures roots == old(roots) && requiresMetaGrfReload == old(requiresMetaGrfReload)
      ensures destinationPath == old(destinationPath) && grfName == old(grfName)
      ensures fileName == old(fileName) && grfPath == old(grfPath)
      ensures files == old(files) && directories == old(directories)
    {
      progress := value;
      progressLog := progressLog + [value];
    }

    /** The body of _updateMapFiles past its first poll: progress -1, the tree cleared and rebuilt from `requests`. */
    method Rebuild(res: Resolver, parsers: Parsers, cancel: Cancel, requests: seq<RootRequest>, fuel: nat)
      returns (ghost polls: nat)
      requires 1 <= |requests| <= 2
      modifies this
      ensures Valid()
      ensures progress == -1.0 && progressLog == old(progressLog) + [-1.0] && !requiresMetaGrfReload
      ensures (roots, polls) == RootsFrom(res, parsers, cancel, requests, fuel)
      ensures RootsBuilt(res, parsers, roots, requests, fuel, !Cancelled(cancel, polls))
      ensures |roots| < |requests| ==> Cancelled(cancel, polls)
      ensures cancel == Never ==> |roots| == |requests|
      ensures destinationPath == old(destinationPath) && grfName == old(grfName)
      ensures fileName == old(fileName) && grfPath == old(grfPath)
      ensures files == old(files) && directories == old(directories)
    {
      var built, n := BuildRoots(res, parsers, cancel, requests, fuel);
      polls := n;
      Install(built);
      Report(-1.0);
    }

    /** The rebuilt tree replaces the old one, and the archives count as freshly loaded. */
    method Install(built: seq<Node>)
      modifies this`roots, this`requiresMetaGrfReload
      ensures roots == built && !requiresMetaGrfReload
      ensures progress == old(progress) && progressLog == old(progressLog)
      ensures destinationPath == old(destinationPath) && grfName == old(grfName)
      ensures fileName == old(fileName) && grfPath == old(grfPath)
      ensures files == old(files) && directories == old(directories)
    {
      roots := built;
      requiresMetaGrfReload := false;
    }

    /**
     * Reload: ignored while an operation runs (`running`); otherwise the control switches to
     * the new archive and file and rebuilds its tree.
     */
    method Reload(grfName: string, fileName: string, running: bool,
                  res: Resolver, parsers: Parsers, cancel: Cancel, fuel: nat) returns (ghost polls: nat)
      requires Valid()
      modifies this
      ensures Valid()
      ensures running ==> roots == old(roots) && progress == old(progress) && progressLog == old(progressLog) &&
                          this.grfName == old(this.grfName) && this.fileName == old(this.fileName) &&
                          grfPath == old(grfPath) && requiresMetaGrfReload == old(requiresMetaGrfReload)
      ensures !running ==> this.grfName == grfName && this.fileName == fileName && grfPath == DirectoryName(fileName) &&
                           progress == 100.0
      // cancelled on the first poll: the tree and the reload flag are left as they were
      ensures !running && Cancelled(cancel, 0) ==>
                roots == old(roots) && requiresMetaGrfReload == old(requiresMetaGrfReload) &&
                progressLog == old(progressLog) + [100.0]
      ensures !running && !Cancelled(cancel, 0) ==> !requiresMetaGrfReload && progressLog == old(progressLog) + [-1.0, 100.0]
      ensures running ==> polls == 0
      ensures !running && Cancelled(cancel, 0) ==> polls == 1
      ensures !running && !Cancelled(cancel, 0) ==>
                (roots, polls) == RootsFrom(res, parsers, cancel, RootsFor(fileName, DirectoryName(fileName)), fuel)
      ensures !running && !Cancelled(cancel, 0) ==>
                RootsBuilt(res, parsers, roots, RootsFor(fileName, DirectoryName(fileName)), fuel, !Cancelled(cancel, polls))
      ensures !running && |roots| < |RootsFor(fileName, DirectoryName(fileName))| ==> Cancelled(cancel, polls)
      ensures !running && cancel == Never ==> |roots| == |RootsFor(fileName, DirectoryName(fileName))|
      ensures destinationPath == old(destinationPath) && files == old(files) && directories == old(directories)
    {
      polls := 0;
      if running {
        return;
      }
      Open(grfName, fileName);
      polls := UpdateMapFiles(res, parsers, cancel, fuel);
    }

    /** The control now shows `fileName` of the archive `grfName`; the archive's folder is the file's directory. */
    method Open(grfName: string, fileName: string)
      modifies this`grfName, this`fileName, this`grfPath
      ensures this.grfName == grfName && this.fileName == fileName && grfPath == DirectoryName(fileName)
      ensures roots == old(roots) && progress == old(progress) && progressLog == old(progressLog)
      ensures requiresMetaGrfReload == old(requiresMetaGrfReload) && destinationPath == old(destinationPath)
      ensures files == old(files) && directories == old(directories)
    {
      grfPath := DirectoryName(fileName);
      this.grfName := grfName;
      this.fileName := fileName;
    }

    /**
     * The resource list's Modified handler: the archives must be reloaded, and the tree is
     * rebuilt with no cancel method, so every root comes back.
     */
    method OnResourcesModified(res: Resolver, parsers: Parsers, fuel: nat)
      requires Valid()
      modifies this
      ensures Valid()
      ensures !requiresMetaGrfReload && progress == 100.0
      ensures RootsBuilt(res, parsers, roots, RootsFor(old(fileName), old(grfPath)), fuel, true)
      ensures |roots| == |RootsFor(old(fileName), old(grfPath))|
      ensures destinationPath == old(destinationPath) && grfName == old(grfName)
      ensures fileName == old(fileName) && grfPath == old(grfPath)
      ensures files == old(files) && directories == old(directories)
    {
      requiresMetaGrfReload := true;
      ghost var polls := UpdateMapFiles(res, parsers, Never, fuel);
    }

    /**
     * _export with the destination already chosen: the checked resources, one per full path,
     * are written under destinationPath after their directories are created. The first write
     * that throws (missing bytes, or an output path in `failing`) ends the export; when every
     * file was written, destinationPath becomes the first directory created.
     */
    method RunExport(res: Resolver, failing: set<string>) returns (plan: seq<TkPath>, dirs: seq<string>, written: nat)
      requires Valid()
      modifies this`progress, this`progressLog, this`files, this`directories, this`destinationPath
      ensures roots == old(roots) && grfName == old(grfName) && fileName == old(fileName) && grfPath == old(grfPath)
      ensures requiresMetaGrfReload == old(requiresMetaGrfReload)
      ensures plan == ExportFiles(SelectedAll(roots))
      ensures dirs == DirectoriesToCreate(old(destinationPath), plan)
      ensures written == WrittenCount(res, old(destinationPath), failing, plan)
      ensures directories == old(directories) + (set i | 0 <= i < |dirs| :: dirs[i])
      ensures files == WriteAll(old(files), res, old(destinationPath), plan, written)
      ensures progress == 100.0
      ensures progressLog == old(progressLog) + [-1.0] + ProgressSteps(written, |plan|) + [100.0]
      ensures destinationPath == (if written == |plan| && |dirs| > 0 then dirs[0] else old(destinationPath))
    {
      Report(-1.0);
      var dest := destinationPath;
      var selected := SelectedNodesAll(roots);
      plan := ExportFiles(selected);
      dirs := DirectoriesToCreate(dest, plan);
      CreateDirectories(dirs);
      var fs, reported;
      fs, reported, written := WriteFiles(files, res, failing, dest, plan);
      Commit(fs, reported, if written == |plan| && |dirs| > 0 then dirs[0] else dest);
      Report(100.0);
    }

    /** The directory-creation loop of _export: every directory is added to the file system. */
    method CreateDirectories(dirs: seq<string>)
      modifies this`directories
      ensures roots == old(roots) && files == old(files) && destinationPath == old(destinationPath)
      ensures progress == old(progress) && progressLog == old(progressLog)
      ensures grfName == old(grfName) && fileName == old(fileName) && grfPath == old(grfPath)
      ensures requiresMetaGrfReload == old(requiresMetaGrfReload)
      ensures directories == old(directories) + (set i | 0 <= i < |dirs| :: dirs[i])
    {
      var i := 0;
      while i < |dirs|
        invariant 0 <= i <= |dirs|
        invariant directories == old(directories) + (set j | 0 <= j < i :: dirs[j])
      {
        assert (set j | 0 <= j < i + 1 :: dirs[j]) == (set j | 0 <= j < i :: dirs[j]) + {dirs[i]};
        directories := directories + {dirs[i]};
        i := i + 1;
      }
    }

    /**
     * The written files land in the file system, the progress values the loop reported are
     * logged, and destinationPath takes its new value.
     */
    method Commit(fs: map<string, Bytes>, reported: seq<real>, dest: string)
      modifies this`files, this`progressLog, this`destinationPath
      ensures files == fs && progressLog == old(progressLog) + reported && destinationPath == dest
      ensures roots == old(roots) && directories == old(directories) && progress == old(progress)
      ensures grfName == old(grfName) && fileName == old(fileName) && grfPath == old(grfPath)
      ensures requiresMetaGrfReload == old(requiresMetaGrfReload)
    {
      files := fs;
      progressLog := progressLog + reported;
      destinationPath := dest;
    }

    /**
     * Export: the destination is the configured extraction path when one overrides the default
     * (`overridePath`), otherwise the directory of the opened archive; then _export runs.
     */
    method Export(res: Resolver, failing: set<string>, overridePath: Option<string>) returns (written: nat)
      requires Valid()
      modifies this`progress, this`progressLog, this`files, this`directories, this`destinationPath
      ensures var dest := if overridePath.Some? then overridePath.value else DirectoryName(grfName);
              var plan := ExportFiles(SelectedAll(roots));
              written == WrittenCount(res, dest, failing, plan) &&
              files == WriteAll(old(files), res, dest, plan, written)
    {
      destinationPath := if overridePath.Some? then overridePath.value else DirectoryName(grfName);
      var plan, dirs;
      plan, dirs, written := RunExport(res, failing);
    }

    /** ExportAt: the folder the user picked (None when the dialog was dismissed, and nothing happens). */
    method ExportAt(res: Resolver, failing: set<string>, picked: Option<string>) returns (written: nat)
      requires Valid()
      modifies this`progress, this`progressLog, this`files, this`directories, this`destinationPath
      ensures picked.None? ==> written == 0 && files == old(files) && directories == old(directories) &&
                               destinationPath == old(destinationPath) && progressLog == old(progressLog) &&
                               progress == old(progress)
      ensures picked.Some? ==>
                var plan := ExportFiles(SelectedAll(roots));
                written == WrittenCount(res, picked.value, failing, plan) &&
                files == WriteAll(old(files), res, picked.value, plan, written)
    {
      written := 0;
      if picked.Some? {
        destinationPath := picked.value;
        var plan, dirs;
        plan, dirs, written := RunExport(res, failing);
      }
    }
  }

  /**
   * The reference definition of one root of _updateMapFiles, entered after `polls` polls: the
   * poll before it, then _addNode for the request q; the roots after it and the polls made.
   */
  function AddRootFrom(res: Resolver, parsers: Parsers, cancel: Cancel, polls: nat, roots: seq<Node>,
                       q: RootRequest, fuel: nat): (a: (seq<Node>, nat))
    ensures a.1 > polls
  {
    if Cancelled(cancel, polls) then (roots, polls + 1)
    else
      var w := WalkFrom(res, parsers, cancel, polls + 1, q.name, q.location, q.isChecked, fuel);
      (Attach(roots, w.0), w.1)
  }

  /**
   * The reference definition of the rebuild after the first poll (poll 0): the first root, and
   * for a map the second root unless the poll before the first one saw the cancel.
   */
  function RootsFrom(res: Resolver, parsers: Parsers, cancel: Cancel, requests: seq<RootRequest>, fuel: nat)
    : (b: (seq<Node>, nat))
    requires 1 <= |requests| <= 2
    ensures b.1 > 1
  {
    var first := AddRootFrom(res, parsers, cancel, 1, [], requests[0], fuel);
    if |requests| == 2 && !Cancelled(cancel, 1) then AddRootFrom(res, parsers, cancel, first.1, first.0, requests[1], fuel)
    else first
  }

  /**
   * A rebuild whose cancel predicate had not turned true by its last poll builds what the
   * rebuild without a cancel method builds: every requested root, each walked completely.
   */
  lemma RootsFromUncancelled(res: Resolver, parsers: Parsers, cancel: Cancel, requests: seq<RootRequest>, fuel: nat)
    requires 1 <= |requests| <= 2
    requires !Cancelled(cancel, RootsFrom(res, parsers, cancel, requests, fuel).1)
    ensures RootsFrom(res, parsers, cancel, requests, fuel) == RootsFrom(res, parsers, Never, requests, fuel)
  {
    var first := AddRootFrom(res, parsers, cancel, 1, [], requests[0], fuel);
    AddRootFromUncancelled(res, parsers, cancel, 1, [], requests[0], fuel);
    if |requests| == 2 && !Cancelled(cancel, 1) {
      AddRootFromUncancelled(res, parsers, cancel, first.1, first.0, requests[1], fuel);
    }
  }

  lemma AddRootFromUncancelled(res: Resolver, parsers: Parsers, cancel: Cancel, polls: nat, roots: seq<Node>,
                               q: RootRequest, fuel: nat)
    requires !Cancelled(cancel, AddRootFrom(res, parsers, cancel, polls, roots, q, fuel).1)
    ensures AddRootFrom(res, parsers, cancel, polls, roots, q, fuel) == AddRootFrom(res, parsers, Never, polls, roots, q, fuel)
  {
    if !Cancelled(cancel, polls) {
      WalkFromUncancelled(res, parsers, cancel, polls + 1, q.name, q.location, q.isChecked, fuel);
    }
  }

  /**
   * One root of _updateMapFiles: the cancel poll that precedes it, then _addNode for the
   * request with no parent, the new node appended to the roots.
   */
  method AddRoot(res: Resolver, parsers: Parsers, cancel: Cancel, polls: nat, roots: seq<Node>,
                 requests: seq<RootRequest>, fuel: nat)
    returns (rootsOut: seq<Node>, pollsOut: nat, stopped: bool)
    requires AllSound(roots) && RootsBuilt(res, parsers, roots, requests, fuel, !Cancelled(cancel, polls)) && |roots| < |requests|
    ensures (rootsOut, pollsOut) == AddRootFrom(res, parsers, cancel, polls, roots, requests[|roots|], fuel)
    ensures AllSound(rootsOut) && RootsBuilt(res, parsers, rootsOut, requests, fuel, !Cancelled(cancel, pollsOut))
    ensures pollsOut > polls
    ensures stopped <==> Cancelled(cancel, polls)
    ensures |roots| <= |rootsOut| <= |roots| + 1 && rootsOut[..|roots|] == roots
    ensures stopped ==> rootsOut == roots
    ensures |rootsOut| == |roots| ==> Cancelled(cancel, pollsOut)
    ensures cancel == Never ==> |rootsOut| == |roots| + 1
  {
    rootsOut := roots;
    stopped := Cancelled(cancel, polls);
    pollsOut := polls + 1;
    if !stopped {
      var r;
      r, pollsOut := BuildRoot(res, parsers, cancel, pollsOut, requests[|roots|], fuel);
      AttachBuilt(res, parsers, roots, requests, fuel, !Cancelled(cancel, pollsOut), r);
      rootsOut := Attach(roots, r);
    }
  }

  /**
   * The roots of the rebuild, after the first poll: one root, or for a map the .gnd root and
   * then, unless cancelled meanwhile, the .rsw root.
   */
  method BuildRoots(res: Resolver, parsers: Parsers, cancel: Cancel, requests: seq<RootRequest>, fuel: nat)
    returns (roots: seq<Node>, polls: nat)
    requires 1 <= |requests| <= 2
    ensures (roots, polls) == RootsFrom(res, parsers, cancel, requests, fuel)
    ensures AllSound(roots) && RootsBuilt(res, parsers, roots, requests, fuel, !Cancelled(cancel, polls))
    // a request left without a root means the walk was cancelled
    ensures |roots| < |requests| ==> Cancelled(cancel, polls)
    ensures cancel == Never ==> |roots| == |requests|
  {
    polls := 1;
    var stopped;
    roots, polls, stopped := AddRoot(res, parsers, cancel, polls, [], requests, fuel);
    if |requests| == 2 && !stopped {
      // a map: the .rsw root follows the .gnd root
      roots, polls, stopped := AddRoot(res, parsers, cancel, polls, roots, requests, fuel);
    }
  }

  /**
   * The writing loop of _export: each file's bytes go to its output path and progress reports
   * (index + 1) / count * 100 after it, until the first write that throws. Returns the file
   * system after the loop and the progress values reported, in order.
   */
  method WriteFiles(fs: map<string, Bytes>, res: Resolver, failing: set<string>, dest: string, plan: seq<TkPath>)
    returns (fsOut: map<string, Bytes>, reported: seq<real>, written: nat)
    ensures written == WrittenCount(res, dest, failing, plan)
    ensures fsOut == WriteAll(fs, res, dest, plan, written)
    ensures reported == ProgressSteps(written, |plan|)
  {
    fsOut, reported, written := fs, [], 0;
    while written < |plan| && !WriteFails(res, dest, failing, plan[written])
      invariant written <= WrittenCount(res, dest, failing, plan)
      invariant fsOut == WriteAll(fs, res, dest, plan, written)
      invariant |reported| == written && forall i :: 0 <= i < written ==> reported[i] == ProgressAfter(i, |plan|)
    {
      WrittenCountAt(res, dest, failing, plan, written);
      WriteAllNext(fs, res, dest, plan, written);
      var f := plan[written];
      fsOut := fsOut[OutputPath(dest, f) := GetData(res, f.relativePath).value];
      reported := reported + [ProgressAfter(written, |plan|)];
      written := written + 1;
    }
    if written < |plan| {
      // the write of plan[written] threw
      WrittenCountAt(res, dest, failing, plan, written);
    }
    ProgressStepsOf(reported, |plan|);
  }

  /** _addNode for a root request, with what the rebuild relies on. */
  method BuildRoot(res: Resolver, parsers: Parsers, cancel: Cancel, polls: nat, q: RootRequest, fuel: nat)
    returns (r: Option<Node>, pollsOut: nat)
    ensures (r, pollsOut) == WalkFrom(res, parsers, cancel, polls, q.name, q.location, q.isChecked, fuel)
    ensures pollsOut > polls
    ensures r.None? <==> Cancelled(cancel, polls)
    ensures r.Some? ==> Sound(r.value) && Built(res, parsers, r.value, q, fuel, !Cancelled(cancel, pollsOut))
    ensures cancel == Never ==> r.Some?
  {
    r, pollsOut := AddNode(res, parsers, cancel, polls, q.name, q.location, q.isChecked, fuel);
  }

  /** The inner scan of "select root files": whether every resolvable node among cs is checked. */
  method ScanResolvable(cs: seq<Node>) returns (allChecked: bool)
    ensures allChecked <==> forall k :: 0 <= k < |cs| && cs[k].resource.Some? ==> cs[k].checked == Some(true)
  {
    allChecked := true;
    var j := 0;
    while j < |cs|
      invariant 0 <= j <= |cs|
      invariant allChecked <==> AllResolvableChecked(cs[..j])
    {
      assert cs[..j + 1] == cs[..j] + [cs[j]];
      if cs[j].resource.Some? && cs[j].checked != Some(true) {
        allChecked := false;
      }
      j := j + 1;
    }
    assert cs[..j] == cs;
  }

  /** The body of "select root files" on the selected node tvi, before the upward pass. */
  method SettleRoot(tvi: Node) returns (t: Node)
    ensures t == SelectRoot(tvi)
  {
    var state := tvi.checked;
    if tvi.resource.Some? {
      state := Some(true);
    }
    var children := tvi.children;
    var k := 0;
    while k < |tvi.children|
      invariant 0 <= k <= |tvi.children| && |children| == |tvi.children|
      invariant forall j :: 0 <= j < k ==> children[j] == SelectChild(tvi.children[j])
      invariant forall j :: k <= j < |tvi.children| ==> children[j] == tvi.children[j]
      invariant state == if SomeChildPartial(tvi.children[..k]) then None
                         else if tvi.resource.Some? then Some(true) else tvi.checked
    {
      var child := tvi.children[k];
      assert tvi.children[..k + 1] == tvi.children[..k] + [child];
      SomeChildPartialAppend(tvi.children[..k], child);
      if child.resource.Some? {
        var allChecked := ScanResolvable(child.children);
        if !allChecked {
          children := children[k := child.(checked := None)];
          state := None;
        } else {
          children := children[k := child.(checked := Some(true))];
        }
      }
      k := k + 1;
    }
    assert tvi.children[..k] == tvi.children;
    t := tvi.(checked := state, children := children);
  }
}

=== FILE: paths.dfy ===
/**
 * The few System.IO.Path operations the map extractor relies on, on Windows
 * conventions: `\` and `/` both separate directories, `\` is inserted by Combine.
 */
module Paths {

  predicate IsSeparator(c: char) { c == '\\' || c == '/' }

  /** Path.IsPathRooted: a leading separator or a drive letter. */
  predicate IsRooted(p: string) {
    (|p| >= 1 && IsSeparator(p[0])) || (|p| >= 2 && p[1] == ':')
  }

  predicate NoSeparator(s: string) {
    forall k :: 0 <= k < |s| ==> !IsSeparator(s[k])
  }

  /** Path.Combine(dir, name). */
  function Combine(dir: string, name: string): string {
    if name == [] then dir
    else if dir == [] then name
    else if IsRooted(name) then name
    else if IsSeparator(dir[|dir| - 1]) || dir[|dir| - 1] == ':' then dir + name
    else dir + "\\" + name
  }

  /** The combined path ends with `name`; a relative `name` follows `dir`, a rooted one replaces it. */
  lemma CombineShape(dir: string, name: string)
    ensures var r := Combine(dir, name);
      |name| <= |r| && r[|r| - |name|..] == name &&
      (name != [] && !IsRooted(name) ==> |dir| <= |r| <= |dir| + 1 + |name| && r[..|dir|] == dir) &&
      (IsRooted(name) ==> r == name)
  {
  }

  /** Under one directory, distinct relative names give distinct paths. */
  lemma CombineInjective(dir: string, a: string, b: string)
    requires a != [] && b != [] && !IsRooted(a) && !IsRooted(b)
    requires Combine(dir, a) == Combine(dir, b)
    ensures a == b
  {
    var prefix := if dir == [] || IsSeparator(dir[|dir| - 1]) || dir[|dir| - 1] == ':' then dir else dir + "\\";
    assert Combine(dir, a) == prefix + a && Combine(dir, b) == prefix + b;
    assert a == (prefix + a)[|prefix|..];
  }

  /** Index of the last directory separator, or -1. */
  function LastSeparator(p: string): (r: int)
    ensures -1 <= r < |p|
    ensures r >= 0 ==> IsSeparator(p[r])
    ensures forall k :: r < k < |p| ==> !IsSeparator(p[k])
  {
    if p == [] then -1
    else if IsSeparator(p[|p| - 1]) then |p| - 1
    else LastSeparator(p[..|p| - 1])
  }

  /** Index of the last '.', or -1. */
  function LastDot(p: string): (r: int)
    ensures -1 <= r < |p|
    ensures r >= 0 ==> p[r] == '.'
    ensures forall k :: r < k < |p| ==> p[k] != '.'
  {
    if p == [] then -1
    else if p[|p| - 1] == '.' then |p| - 1
    else LastDot(p[..|p| - 1])
  }

  /** Path.GetFileName: what follows the last separator. */
  function FileName(p: string): (r: string)
    ensures NoSeparator(r)
    ensures |r| <= |p| && r == p[|p| - |r|..]
  {
    p[LastSeparator(p) + 1..]
  }

  /**
   * The length of the root of p, as Path.GetDirectoryName measures it: `\\server\share` for
   * a UNC path, `\` for a path rooted on the current drive, `C:\` or `C:` for a path on a
   * drive, nothing for a relative path.
   */
  function RootLength(p: string): (n: nat)
    ensures n <= |p|
    ensures n > 0 <==> IsRooted(p)
  {
    if p != [] && IsSeparator(p[0]) then (if |p| >= 2 && IsSeparator(p[1]) then UncRootEnd(p, 2, 2) else 1)
    else if |p| >= 2 && p[1] == ':' then (if |p| >= 3 && IsSeparator(p[2]) then 3 else 2)
    else 0
  }

  /** The scan for the end of a UNC root from index i: it stops at the n-th separator or at the end. */
  function UncRootEnd(p: string, i: nat, n: nat): (r: nat)
    requires i <= |p|
    ensures i <= r <= |p|
    decreases |p| - i
  {
    if i == |p| then i
    else if IsSeparator(p[i]) then (if n <= 1 then i else UncRootEnd(p, i + 1, n - 1))
    else UncRootEnd(p, i + 1, n)
  }

  /**
   * Path.GetDirectoryName: what precedes the last separator, but never less than the path's
   * root; "" (null in .NET) for a path that is nothing but its root.
   */
  function DirectoryName(p: string): (r: string)
    ensures |r| < |p| || p == []
    ensures r <= p
    ensures |p| > RootLength(p) ==> |r| >= RootLength(p)
    ensures |r| > RootLength(p) ==> IsSeparator(p[|r|]) && NoSeparator(p[|r| + 1..])
  {
    var root := RootLength(p);
    var i := LastSeparator(p);
    if |p| <= root then ""
    else if i < root then p[..root]
    else p[..i]
  }

  /** A file directly under a drive's root or the current drive's root has that root as its directory. */
  lemma DirectoryNameAtRoot(root: string, name: string)
    requires root == "\\" || (|root| == 3 && !IsSeparator(root[0]) && root[1] == ':' && IsSeparator(root[2]))
    requires name != [] && NoSeparator(name)
    ensures DirectoryName(root + name) == root
  {
    var p := root + name;
    LastSeparatorOfPlainTail(root, name);
    assert LastSeparator(root) == |root| - 1;
    assert p[..|root|] == root;
  }

  /** Path.GetFileNameWithoutExtension: the file name up to its last '.'. */
  function FileNameWithoutExtension(p: string): (r: string)
    ensures r <= FileName(p)
    ensures NoSeparator(r)
  {
    var f := FileName(p);
    var d := LastDot(f);
    if d < 0 then f else f[..d]
  }

  /** Path.GetExtension: the file name's suffix from its last '.', empty when the dot ends the name. */
  function RawExtension(p: string): (r: string)
    ensures r == [] || (r[0] == '.' && |r| >= 2)
    ensures |r| <= |FileName(p)| && r == FileName(p)[|FileName(p)| - |r|..]
    ensures forall k :: 1 <= k < |r| ==> r[k] != '.'
  {
    var f := FileName(p);
    var d := LastDot(f);
    if d < 0 || d == |f| - 1 then "" else f[d..]
  }

  function LowerChar(c: char): char {
    if 'A' <= c <= 'Z' then (c as int - 'A' as int + 'a' as int) as char else c
  }

  function Lower(s: string): (r: string)
    ensures |r| == |s|
    ensures forall k :: 0 <= k < |s| ==> r[k] == LowerChar(s[k])
  {
    seq(|s|, k requires 0 <= k < |s| => LowerChar(s[k]))
  }

  /**
   * The extension helper used for dispatching on resource kinds: Path.GetExtension lower-cased,
   * read by scanning back from the end of the path. `acc` holds the characters already passed,
   * lower-cased; they become the extension when a '.' is reached before any separator.
   */
  function Extension(p: string): string {
    ScanExtension(p, "")
  }

  function ScanExtension(q: string, acc: string): string {
    if q == [] || IsSeparator(q[|q| - 1]) then ""
    else if q[|q| - 1] == '.' then (if acc == [] then "" else ['.'] + acc)
    else ScanExtension(q[..|q| - 1], [LowerChar(q[|q| - 1])] + acc)
  }

  /** The scan agrees with the definition through GetFileName and the last dot. */
  lemma ExtensionIsLowerRaw(p: string)
    ensures Extension(p) == Lower(RawExtension(p))
  {
    assert Lower("") == "";
    assert p + "" == p;
    ScanIsLowerRaw(p, "");
  }

  lemma {:induction false} ScanIsLowerRaw(q: string, t: string)
    requires NoSeparator(t) && '.' !in t
    ensures ScanExtension(q, Lower(t)) == Lower(RawExtension(q + t))
    decreases |q|
  {
    if q == [] || IsSeparator(q[|q| - 1]) {
      ScanEndsAtSeparator(q, t);
    } else if q[|q| - 1] == '.' {
      ScanEndsAtDot(q, t);
    } else {
      var init, c := q[..|q| - 1], q[|q| - 1];
      ScanStep(q, t);
      assert init + ([c] + t) == q + t;
      ScanIsLowerRaw(init, [c] + t);
    }
  }

  /** The scan stops with nothing at a separator or at the start of the path. */
  lemma ScanEndsAtSeparator(q: string, t: string)
    requires NoSeparator(t) && '.' !in t
    requires q == [] || IsSeparator(q[|q| - 1])
    ensures ScanExtension(q, Lower(t)) == Lower(RawExtension(q + t))
  {
    RawExtensionAfterSeparator(q, t);
  }

  /** The scan stops at a '.' with the lower-cased tail, dot included. */
  lemma ScanEndsAtDot(q: string, t: string)
    requires NoSeparator(t) && '.' !in t
    requires q != [] && q[|q| - 1] == '.'
    ensures ScanExtension(q, Lower(t)) == Lower(RawExtension(q + t))
  {
    RawExtensionAfterDot(q, t);
    LowerCons('.', t);
  }

  /** One step of the scan moves the last plain character of q onto the tail. */
  lemma ScanStep(q: string, t: string)
    requires NoSeparator(t) && '.' !in t
    requires q != [] && !IsSeparator(q[|q| - 1]) && q[|q| - 1] != '.'
    ensures NoSeparator([q[|q| - 1]] + t) && '.' !in [q[|q| - 1]] + t
    ensures ScanExtension(q, Lower(t)) == ScanExtension(q[..|q| - 1], Lower([q[|q| - 1]] + t))
  {
    var c := q[|q| - 1];
    var ct := [c] + t;
    forall k | 0 <= k < |ct|
      ensures !IsSeparator(ct[k]) && ct[k] != '.'
    {
      if k > 0 {
        assert ct[k] == t[k - 1];
      }
    }
    LowerCons(c, t);
  }

  lemma LowerCons(c: char, t: string)
    ensures Lower([c] + t) == [LowerChar(c)] + Lower(t)
  {
  }

  /** A plain tail right after a separator (or alone) has no extension. */
  lemma RawExtensionAfterSeparator(q: string, t: string)
    requires NoSeparator(t) && '.' !in t
    requires q == [] || IsSeparator(q[|q| - 1])
    ensures RawExtension(q + t) == ""
  {
    FileNameOfPlainTail(q, t);
    assert FileName(q) == [];
  }

  /** A plain tail right after a '.' is the extension, with the dot; nothing when the tail is empty. */
  lemma RawExtensionAfterDot(q: string, t: string)
    requires NoSeparator(t) && '.' !in t
    requires q != [] && q[|q| - 1] == '.'
    ensures RawExtension(q + t) == (if t == [] then "" else ['.'] + t)
  {
    FileNameOfPlainTail(q, t);
    FileNameEndsWithDot(q);
    RawExtensionOfDottedName(q + t, FileName(q), t);
  }

  /** A file name made of a stem ending in '.' and a dot-free tail has that tail as extension. */
  lemma RawExtensionOfDottedName(p: string, f0: string, t: string)
    requires FileName(p) == f0 + t && '.' !in t
    requires f0 != [] && f0[|f0| - 1] == '.'
    ensures RawExtension(p) == (if t == [] then "" else ['.'] + t)
  {
    LastDotOfDotless(f0, t);
    assert LastDot(f0) == |f0| - 1;
    if t != [] {
      assert (f0 + t)[|f0| - 1..] == ['.'] + t;
    }
  }

  /** The file name of a path followed by separator-free characters is extended by them. */
  lemma FileNameOfPlainTail(q: string, t: string)
    requires NoSeparator(t)
    ensures FileName(q + t) == FileName(q) + t
  {
    LastSeparatorOfPlainTail(q, t);
    var i := LastSeparator(q) + 1;
    assert (q + t)[i..] == q[i..] + t;
  }

  /** A path ending with '.' has a file name ending with it. */
  lemma FileNameEndsWithDot(q: string)
    requires q != [] && q[|q| - 1] == '.'
    ensures FileName(q) != [] && FileName(q)[|FileName(q)| - 1] == '.'
  {
    assert LastSeparator(q) == LastSeparator(q[..|q| - 1]);
  }

  /** Separator-free characters after a path do not move its last separator. */
  lemma {:induction false} LastSeparatorOfPlainTail(q: string, t: string)
    requires NoSeparator(t)
    ensures LastSeparator(q + t) == LastSeparator(q)
    decreases |t|
  {
    if t == [] {
      assert q + t == q;
    } else {
      var u := t[..|t| - 1];
      assert (q + t)[..|q + t| - 1] == q + u;
      LastSeparatorOfPlainTail(q, u);
    }
  }

  /** Dot-free characters after a string do not move its last dot. */
  lemma {:induction false} LastDotOfDotless(f: string, t: string)
    requires '.' !in t
    ensures LastDot(f + t) == LastDot(f)
    decreases |t|
  {
    if t == [] {
      assert f + t == f;
    } else {
      var u := t[..|t| - 1];
      assert (f + t)[..|f + t| - 1] == f + u;
      assert (f + t)[|f + t| - 1] == t[|t| - 1];
      LastDotOfDotless(f, u);
    }
  }

  predicate IsExtension(p: string, ext: string) {
    Extension(p) == ext
  }

  lemma {:induction false} LastSeparatorAfterSeparator(dir: string, name: string)
    requires NoSeparator(name)
    ensures LastSeparator(dir + "\\" + name) == |dir|
    decreases |name|
  {
    var p := dir + "\\" + name;
    if name == [] {
      assert p[|p| - 1] == '\\';
    } else {
      assert p[..|p| - 1] == dir + "\\" + name[..|name| - 1];
      LastSeparatorAfterSeparator(dir, name[..|name| - 1]);
    }
  }

  /**
   * Combining a plain directory (no trailing separator) with a plain file name
   * can be split back into the two: GetDirectoryName and GetFileName invert Combine.
   */
  lemma CombineSplits(dir: string, name: string)
    requires dir != [] && !IsSeparator(dir[|dir| - 1]) && dir[|dir| - 1] != ':'
    // a bare UNC server \\server joined with a name is a UNC root, which has no directory
    requires !(|dir| >= 2 && IsSeparator(dir[0]) && IsSeparator(dir[1]) && NoSeparator(dir[2..]))
    requires name != [] && NoSeparator(name) && !IsRooted(name)
    ensures DirectoryName(Combine(dir, name)) == dir
    ensures FileName(Combine(dir, name)) == name
  {
    CombineFileName(dir, name);
    var p := dir + "\\" + name;
    if IsSeparator(p[0]) && IsSeparator(p[1]) {
      var k :| 0 <= k < |dir[2..]| && IsSeparator(dir[2..][k]);
      UncRootEndTwo(p, 2, k + 2, |dir|);
    }
    assert RootLength(p) <= |dir|;
    assert p[..|dir|] == dir;
  }

  /** The scan for a UNC root's end, asked to stop at the first separator, stops by the separator at j. */
  lemma {:induction false} UncRootEndOne(p: string, i: nat, j: nat)
    requires i <= j < |p| && IsSeparator(p[j])
    ensures UncRootEnd(p, i, 1) <= j
    decreases j - i
  {
    if !IsSeparator(p[i]) {
      UncRootEndOne(p, i + 1, j);
    }
  }

  /** Asked to stop at the second separator, it stops by j when p[k] and p[j] are separators. */
  lemma {:induction false} UncRootEndTwo(p: string, i: nat, k: nat, j: nat)
    requires i <= k < j < |p| && IsSeparator(p[k]) && IsSeparator(p[j])
    ensures UncRootEnd(p, i, 2) <= j
    decreases k - i
  {
    if IsSeparator(p[i]) {
      UncRootEndOne(p, i + 1, j);
    } else {
      UncRootEndTwo(p, i + 1, k, j);
    }
  }

  /** The file name of a plain directory combined with a plain file name is that name. */
  lemma CombineFileName(dir: string, name: string)
    requires dir != [] && !IsSeparator(dir[|dir| - 1]) && dir[|dir| - 1] != ':'
    requires name != [] && NoSeparator(name) && !IsRooted(name)
    ensures Combine(dir, name) == dir + "\\" + name
    ensures LastSeparator(Combine(dir, name)) == |dir|
    ensures FileName(Combine(dir, name)) == name
  {
    LastSeparatorAfterSeparator(dir, name);
    var p := dir + "\\" + name;
    assert p[|dir| + 1..] == name;
  }

  /** The extension of a combined path is the extension of the name that was combined in. */
  lemma CombineKeepsExtension(dir: string, name: string)
    requires dir != [] && !IsSeparator(dir[|dir| - 1]) && dir[|dir| - 1] != ':'
    requires name != [] && NoSeparator(name) && !IsRooted(name)
    ensures Extension(Combine(dir, name)) == Extension(name)
    ensures FileNameWithoutExtension(Combine(dir, name)) == FileNameWithoutExtension(name)
  {
    var c := Combine(dir, name);
    CombineFileName(dir, name);
    assert FileName(c) == name;
    assert FileName(name) == name by {
      assert LastSeparator(name) == -1;
    }
    assert RawExtension(c) == RawExtension(name);
    ExtensionIsLowerRaw(c);
    ExtensionIsLowerRaw(name);
  }

  /** A '.' followed by at least one character that is neither a dot, a separator nor upper case. */
  predicate PlainExtension(ext: string) {
    |ext| >= 2 && ext[0] == '.' &&
    forall k :: 1 <= k < |ext| ==> ext[k] != '.' && !IsSeparator(ext[k]) && !('A' <= ext[k] <= 'Z')
  }

  /**
   * Appending a lower-case extension to a plain file name stem is undone by the path
   * helpers: the extension read back is the one appended, and so is the stem.
   */
  lemma ExtensionOfAppended(stem: string, ext: string)
    requires NoSeparator(stem) && PlainExtension(ext)
    ensures Extension(stem + ext) == ext
    ensures FileNameWithoutExtension(stem + ext) == stem
  {
    var p := stem + ext;
    assert NoSeparator(p) by {
      forall k | 0 <= k < |p| ensures !IsSeparator(p[k]) {
        if k >= |stem| { assert p[k] == ext[k - |stem|]; }
      }
    }
    FileNameOfPlain(p);
    LastDotOfAppended(stem, ext);
    LowerOfLower(ext);
    ExtensionIsLowerRaw(p);
  }

  /** A path without separators is its own file name. */
  lemma FileNameOfPlain(p: string)
    requires NoSeparator(p)
    ensures FileName(p) == p
  {
    assert LastSeparator(p) == -1;
  }

  /** The last dot of stem + ext is the one that starts ext. */
  lemma LastDotOfAppended(stem: string, ext: string)
    requires PlainExtension(ext)
    ensures LastDot(stem + ext) == |stem|
  {
    var p := stem + ext;
    assert p[|stem|] == '.';
  }

  /** Lower-casing leaves a string without capitals as it is. */
  lemma LowerOfLower(s: string)
    requires forall k :: 0 <= k < |s| ==> !('A' <= s[k] <= 'Z')
    ensures Lower(s) == s
  {
  }
}

=== FILE: resourcelist.dfy ===
/**
 * The resource list of the extractor (LoadResourceMethod): the saved list of archive paths,
 * with the entry naming the currently opened archive kept first.
 */
module ResourceList {
  /** items.RemoveAll(p => p.StartsWith(marker)): the entries that do not start with the marker, in order. */
  function WithoutMarked(items: seq<string>, marker: string): (r: seq<string>)
    ensures |r| <= |items|
    ensures forall x :: x in r <==> x in items && !(marker <= x)
  {
    if items == [] then []
    else if marker <= items[0] then WithoutMarked(items[1..], marker)
    else [items[0]] + WithoutMarked(items[1..], marker)
  }

  /** Removal works entry by entry, so the kept entries stay in their original order. */
  lemma {:induction false} WithoutMarkedAppend(a: seq<string>, b: seq<string>, marker: string)
    ensures WithoutMarked(a + b, marker) == WithoutMarked(a, marker) + WithoutMarked(b, marker)
    decreases |a|
  {
    if a != [] {
      assert (a + b)[0] == a[0] && (a + b)[1..] == a[1..] + b;
      WithoutMarkedAppend(a[1..], b, marker);
    } else {
      assert a + b == b;
    }
  }

  /** A list with no marked entry is left as it is. */
  lemma {:induction false} WithoutMarkedNone(items: seq<string>, marker: string)
    requires forall k :: 0 <= k < |items| ==> !(marker <= items[k])
    ensures WithoutMarked(items, marker) == items
    decreases |items|
  {
    if items != [] {
      WithoutMarkedNone(items[1..], marker);
    }
  }

  /**
   * The list loaded from the configuration: unchanged when it already names the current archive;
   * otherwise every entry naming an opened archive is dropped and the current one put first.
   */
  function LoadResources(items: seq<string>, marker: string, grfName: string): (r: seq<string>)
    ensures marker + grfName in r
    ensures marker + grfName in items ==> r == items
    ensures marker + grfName !in items ==> |r| > 0 && r[0] == marker + grfName
    ensures forall x :: x in r <==> x == marker + grfName || (x in items && (marker + grfName in items || !(marker <= x)))
  {
    var current := marker + grfName;
    if current in items then items
    else [current] + WithoutMarked(items, marker)
  }

  /** Loading again what was loaded changes nothing. */
  lemma LoadResourcesIdempotent(items: seq<string>, marker: string, grfName: string)
    ensures LoadResources(LoadResources(items, marker, grfName), marker, grfName) == LoadResources(items, marker, grfName)
  {
  }

  /**
   * When the current archive was not listed, it is the only entry naming an opened archive
   * afterwards, and the other entries follow in their original order.
   */
  lemma LoadResourcesReplacesMarked(items: seq<string>, marker: string, grfName: string)
    requires marker + grfName !in items
    ensures var r := LoadResources(items, marker, grfName);
      (forall k :: 1 <= k < |r| ==> !(marker <= r[k])) &&
      multiset(r)[marker + grfName] == 1 &&
      r[1..] == WithoutMarked(items, marker)
  {
    var r := LoadResources(items, marker, grfName);
    var rest := WithoutMarked(items, marker);
    assert r == [marker + grfName] + rest;
    assert r[1..] == rest;
    forall k | 1 <= k < |r| ensures !(marker <= r[k]) {
      assert r[k] == rest[k - 1];
      assert rest[k - 1] in rest;
    }
    assert marker <= marker + grfName;
    assert marker + grfName !in rest;
    assert multiset(rest)[marker + grfName] == 0;
  }

  /**
   * LoadResourceMethod step by step: when the current archive is missing, RemoveAll
   * walks the list dropping the marked entries, then Insert puts the current archive at index 0.
   */
  method LoadResourceList(items: seq<string>, marker: string, grfName: string) returns (r: seq<string>)
    ensures r == LoadResources(items, marker, grfName)
  {
    var current := marker + grfName;
    if current in items {
      return items;
    }
    var kept: seq<string> := [];
    var i := 0;
    while i < |items|
      invariant 0 <= i <= |items|
      invariant kept == WithoutMarked(items[..i], marker)
    {
      assert items[..i + 1] == items[..i] + [items[i]];
      WithoutMarkedAppend(items[..i], [items[i]], marker);
      assert [items[i]][1..] == [];
      if !(marker <= items[i]) {
        kept := kept + [items[i]];
      }
      i := i + 1;
    }
    assert items[..i] == items;
    r := [current] + kept;
  }
}

=== FILE: resources.dfy ===
/**
 * What the dependency walk consumes: the layered resolver (MultiGrfReader after
 * Update), the four resource parsers, and the first-occurrence deduplication
 * that HashSet insertion and Enumerable.Distinct perform.
 */
module Resources {
  import opened Wrappers

  type Bytes = seq<bv8>

  /** A resolved resource: the archive that won the lookup and the relative path asked for. */
  datatype TkPath = TkPath(grf: string, relativePath: string)

  /** What the resolver holds for one relative path: the winning archive and its bytes. */
  datatype Entry = Entry(grf: string, data: Bytes)

  /** The stack of archives, already layered: a relative path maps to its winner, if any. */
  type Resolver = string -> Option<Entry>

  /** MultiGrfReader.GetData: the bytes of the winning archive, null when no archive holds the path. */
  function GetData(res: Resolver, path: string): (r: Option<Bytes>)
    ensures r.Some? <==> res(path).Some?
    ensures r.Some? ==> r.value == res(path).value.data
  {
    match res(path)
    case None => None
    case Some(e) => Some(e.data)
  }

  /** MultiGrfReader.FindTkPath: the provenance of the winning archive. */
  function FindTkPath(res: Resolver, path: string): (r: Option<TkPath>)
    ensures r.Some? <==> GetData(res, path).Some?
    ensures r.Some? ==> r.value.relativePath == path && r.value.grf == res(path).value.grf
  {
    match res(path)
    case None => None
    case Some(e) => Some(TkPath(e.grf, path))
  }

  /** The parts of a model (.rsm/.rsm2) the walk reads: per-mesh textures and top-level textures. */
  datatype RsmData = RsmData(meshTextures: seq<seq<string>>, textures: seq<string>)

  /**
   * The byte parsers for the four resource kinds; `None` stands for the exception a parser
   * throws on malformed bytes.
   *  rsm: new Rsm(bytes); gnd: new Gnd(bytes).TexturesPath; rsw: new Rsw(bytes).ModelResources;
   *  str: new Str(bytes).Layers, one texture-name list per layer.
   */
  datatype Parsers = Parsers(
    rsm: Bytes -> Option<RsmData>,
    gnd: Bytes -> Option<seq<string>>,
    rsw: Bytes -> Option<seq<string>>,
    str: Bytes -> Option<seq<seq<string>>>)

  predicate NoDup<T(==)>(s: seq<T>) {
    forall i, j :: 0 <= i < j < |s| ==> s[i] != s[j]
  }

  /** First-occurrence deduplication, keeping the order in which elements first appear. */
  function Distinct<T(==)>(s: seq<T>): seq<T> {
    if s == [] then []
    else
      var d := Distinct(s[..|s| - 1]);
      if s[|s| - 1] in d then d else d + [s[|s| - 1]]
  }

  /** Deduplication yields no repeats, loses and invents no element, and is no longer than its input. */
  lemma {:induction false} DistinctSpec<T>(s: seq<T>)
    ensures NoDup(Distinct(s))
    ensures forall i :: 0 <= i < |Distinct(s)| ==> Distinct(s)[i] in s
    ensures forall i :: 0 <= i < |s| ==> s[i] in Distinct(s)
    ensures |Distinct(s)| <= |s|
  {
    if s != [] {
      var init := s[..|s| - 1];
      DistinctSpec(init);
      assert s == init + [s[|s| - 1]];
    }
  }

  /** Deduplication keeps exactly the elements of its input. */
  lemma DistinctMembers<T>(s: seq<T>)
    ensures forall x :: x in Distinct(s) <==> x in s
  {
    DistinctSpec(s);
    forall x | x in s ensures x in Distinct(s) {
      var i :| 0 <= i < |s| && s[i] == x;
    }
  }

  /** A list that has no duplicates is left as it is. */
  lemma {:induction false} DistinctOfNoDup<T>(s: seq<T>)
    requires NoDup(s)
    ensures Distinct(s) == s
  {
    if s != [] {
      DistinctOfNoDup(s[..|s| - 1]);
    }
  }

  /** Deduplicating twice is deduplicating once. */
  lemma DistinctIdempotent<T>(s: seq<T>)
    ensures Distinct(Distinct(s)) == Distinct(s)
  {
    DistinctSpec(s);
    DistinctOfNoDup(Distinct(s));
  }

  /**
   * Order of first occurrence: what is kept from a prefix of the input is a prefix of
   * what is kept from the whole, so an element that appears earlier is listed earlier.
   */
  lemma {:induction false} DistinctExtends<T>(s: seq<T>, t: seq<T>)
    ensures Distinct(s) <= Distinct(s + t)
    decreases |t|
  {
    if t != [] {
      var u := s + t[..|t| - 1];
      assert s + t == u + [t[|t| - 1]];
      assert (s + t)[..|s + t| - 1] == u;
      DistinctExtends(s, t[..|t| - 1]);
    } else {
      assert s + t == s;
    }
  }

  /** Enumerable.SelectMany: the lists concatenated in order. */
  function Flatten(ss: seq<seq<string>>): (r: seq<string>)
    ensures forall x :: x in r <==> exists i :: 0 <= i < |ss| && x in ss[i]
  {
    if ss == [] then []
    else
      var rest := Flatten(ss[1..]);
      assert forall x :: x in rest ==> exists i :: 0 <= i < |ss| && x in ss[i] by {
        forall x | x in rest ensures exists i :: 0 <= i < |ss| && x in ss[i] {
          var i :| 0 <= i < |ss[1..]| && x in ss[1..][i];
          assert x in ss[i + 1];
        }
      }
      assert forall i, x :: 1 <= i < |ss| && x in ss[i] ==> x in rest by {
        forall i, x | 1 <= i < |ss| && x in ss[i] ensures x in rest {
          assert x in ss[1..][i - 1];
        }
      }
      ss[0] + rest
  }

  /**
   * The distinct references a resolvable resource contributes as children, or None when its
   * parser throws. Extensions without a case (textures and everything else) contribute none.
   */
  function Dependencies(p: Parsers, ext: string, data: Bytes): Option<seq<string>> {
    if ext == ".rsm" || ext == ".rsm2" then
      match p.rsm(data)
      case None => None
      case Some(m) => Some(Distinct(Flatten(m.meshTextures) + m.textures))
    else if ext == ".gnd" then
      match p.gnd(data)
      case None => None
      case Some(t) => Some(Distinct(t))
    else if ext == ".rsw" then
      match p.rsw(data)
      case None => None
      case Some(m) => Some(Distinct(m))
    else if ext == ".str" then
      match p.str(data)
      case None => None
      case Some(layers) => Some(Distinct(Flatten(layers)))
    else Some([])
  }

  /**
   * Which references each kind contributes: a model the union of its per-mesh and top-level
   * textures, a ground its texture paths, a world its model resources, an effect the texture
   * names of all its layers; and a parse failure exactly when the kind's parser throws.
   */
  lemma DependenciesOfKind(p: Parsers, ext: string, data: Bytes)
    ensures Dependencies(p, ext, data).Some? ==> NoDup(Dependencies(p, ext, data).value)
    ensures ext !in {".rsm", ".rsm2", ".gnd", ".rsw", ".str"} ==> Dependencies(p, ext, data) == Some([])
    ensures (ext == ".rsm" || ext == ".rsm2") ==>
      var r := Dependencies(p, ext, data);
      (r.None? <==> p.rsm(data).None?) &&
      (r.Some? ==> forall x :: x in r.value <==>
         (x in p.rsm(data).value.textures || x in Flatten(p.rsm(data).value.meshTextures)))
    ensures ext == ".gnd" ==>
      var r := Dependencies(p, ext, data);
      (r.None? <==> p.gnd(data).None?) && (r.Some? ==> forall x :: x in r.value <==> x in p.gnd(data).value)
    ensures ext == ".rsw" ==>
      var r := Dependencies(p, ext, data);
      (r.None? <==> p.rsw(data).None?) && (r.Some? ==> forall x :: x in r.value <==> x in p.rsw(data).value)
    ensures ext == ".str" ==>
      var r := Dependencies(p, ext, data);
      (r.None? <==> p.str(data).None?) &&
      (r.Some? ==> forall x :: x in r.value <==> x in Flatten(p.str(data).value))
  {
    if ext == ".rsm" || ext == ".rsm2" {
      if p.rsm(data).Some? {
        var m := p.rsm(data).value;
        DistinctMembers(Flatten(m.meshTextures) + m.textures);
        DistinctSpec(Flatten(m.meshTextures) + m.textures);
      }
    } else if ext == ".gnd" {
      if p.gnd(data).Some? {
        DistinctMembers(p.gnd(data).value);
        DistinctSpec(p.gnd(data).value);
      }
    } else if ext == ".rsw" {
      if p.rsw(data).Some? {
        DistinctMembers(p.rsw(data).value);
        DistinctSpec(p.rsw(data).value);
      }
    } else if ext == ".str" {
      if p.str(data).Some? {
        DistinctMembers(Flatten(p.str(data).value));
        DistinctSpec(Flatten(p.str(data).value));
      }
    }
  }

  const TextureDirectory: string := "data\\texture\\"
  const ModelDirectory: string := "data\\model\\"

  /** The directory a resource's references are joined under. */
  function ChildLocation(ext: string, location: string): string {
    if ext == ".rsm" || ext == ".rsm2" || ext == ".gnd" then TextureDirectory
    else if ext == ".rsw" then ModelDirectory
    else location
  }

  /** Models and grounds look their textures up under data\texture\, worlds their models under data\model\, effects where they are. */
  lemma ChildLocationOfKind(ext: string, location: string)
    ensures ext in {".rsm", ".rsm2", ".gnd"} ==> ChildLocation(ext, location) == TextureDirectory
    ensures ext == ".rsw" ==> ChildLocation(ext, location) == ModelDirectory
    ensures ext !in {".rsm", ".rsm2", ".gnd", ".rsw"} ==> ChildLocation(ext, location) == location
  {
  }
}

=== FILE: selection.dfy ===
/**
 * Tri-state selection over the dependency tree: the downward cascade raised by setting a
 * check box (_checkBox_Checked/_checkBox_Unchecked), the upward pass (_checkParents) and the
 * "select root files" rule (_menuItemsSelectRootFiles_Click), as functions of the forest.
 * The class MapExtractor runs them in place; this module states and proves what they do.
 */
module Selection {
  import opened Wrappers
  import opened Tree

  // ---------------------------------------------------------------------------
  // Downward cascade
  // ---------------------------------------------------------------------------

  /**
   * Setting an enabled child's IsChecked to v raises its own handler only when the value
   * changes, so the cascade descends exactly through enabled nodes whose state changes.
   */
  function PushChild(c: Node, v: bool): Node
    decreases c
  {
    if c.enabled && c.checked != Some(v) then
      c.(checked := Some(v),
         children := seq(|c.children|, k requires 0 <= k < |c.children| => PushChild(c.children[k], v)))
    else c
  }

  /** The handler's loop: every child of n receives v (n's own state is left as it is). */
  function Push(n: Node, v: bool): Node {
    n.(children := seq(|n.children|, k requires 0 <= k < |n.children| => PushChild(n.children[k], v)))
  }

  /** Every enabled node among cs holds v; disabled ones are not looked at. */
  predicate AllEnabledEqual(cs: seq<Node>, v: bool) {
    forall k :: 0 <= k < |cs| && cs[k].enabled ==> cs[k].checked == Some(v)
  }

  /** No enabled node strictly below n holds v yet. */
  predicate NoneHolds(n: Node, v: bool) {
    forall k :: 0 <= k < |n.children| ==>
      (n.children[k].enabled ==> n.children[k].checked != Some(v)) && NoneHolds(n.children[k], v)
  }

  /** b differs from a only in check states, and every state that differs is an enabled node set to v. */
  predicate OnlySetTo(a: Node, b: Node, v: bool) {
    SameShape(a, b) &&
    (b.checked == a.checked || (a.enabled && b.checked == Some(v))) &&
    forall k :: 0 <= k < |a.children| ==> OnlySetTo(a.children[k], b.children[k], v)
  }

  lemma {:induction false} PushChildOnlySets(c: Node, v: bool)
    ensures OnlySetTo(c, PushChild(c, v), v)
    decreases c
  {
    var d := PushChild(c, v);
    if d != c {
      forall k | 0 <= k < |c.children| ensures OnlySetTo(c.children[k], d.children[k], v) {
        PushChildOnlySets(c.children[k], v);
      }
    } else {
      OnlySetToRefl(c, v);
    }
  }

  lemma {:induction false} OnlySetToRefl(a: Node, v: bool)
    ensures OnlySetTo(a, a, v)
    decreases a
  {
    SameShapeRefl(a);
    forall k | 0 <= k < |a.children| ensures OnlySetTo(a.children[k], a.children[k], v) {
      OnlySetToRefl(a.children[k], v);
    }
  }

  /**
   * The cascade changes nothing but check states, never touches a disabled node and only
   * ever writes v; the node it starts from keeps its own state.
   */
  lemma PushOnlySets(n: Node, v: bool)
    ensures OnlySetTo(n, Push(n, v), v)
    ensures Push(n, v).checked == n.checked
  {
    var r := Push(n, v);
    forall k | 0 <= k < |n.children| ensures OnlySetTo(n.children[k], r.children[k], v) {
      PushChildOnlySets(n.children[k], v);
    }
  }

  /** After the cascade every enabled child holds v. */
  lemma PushSetsChildren(n: Node, v: bool)
    ensures AllEnabledEqual(Push(n, v).children, v)
  {
  }

  /**
   * When no enabled descendant held v, the cascade reaches all of them: every enabled node
   * below n ends holding v (missing nodes have no children, so nothing is hidden under them).
   */
  lemma {:induction false} PushReachesAll(n: Node, v: bool)
    requires Sound(n) && NoneHolds(n, v)
    ensures AllUniform(Push(n, v).children, v)
    decreases n
  {
    var r := Push(n, v);
    forall k | 0 <= k < |n.children| ensures Uniform(r.children[k], v) {
      var c := n.children[k];
      if c.enabled {
        PushReachesAll(c, v);
        assert r.children[k] == Push(c, v).(checked := Some(v));
      } else {
        assert c.children == [];
      }
    }
  }

  /** Setting a node whose enabled children already hold v raises a cascade that changes nothing. */
  lemma PushNoOp(n: Node, v: bool)
    requires AllEnabledEqual(n.children, v)
    ensures Push(n, v) == n
  {
    var r := Push(n, v);
    assert r.children == n.children;
  }

  /** Raising the same cascade twice is raising it once. */
  lemma PushIdempotent(n: Node, v: bool)
    ensures Push(Push(n, v), v) == Push(n, v)
  {
    PushNoOp(Push(n, v), v);
  }

  lemma {:induction false} PushChildSound(c: Node, v: bool)
    requires Sound(c)
    ensures Sound(PushChild(c, v))
    decreases c
  {
    forall k | 0 <= k < |c.children| ensures Sound(PushChild(c.children[k], v)) {
      PushChildSound(c.children[k], v);
    }
  }

  /** The cascade keeps the tree sound. */
  lemma PushSound(n: Node, v: bool)
    requires Sound(n)
    ensures Sound(Push(n, v))
  {
    forall k | 0 <= k < |n.children| ensures Sound(PushChild(n.children[k], v)) {
      PushChildSound(n.children[k], v);
    }
  }

  // ---------------------------------------------------------------------------
  // Upward pass
  // ---------------------------------------------------------------------------

  /**
   * _checkParents(item, v) for the item at p. At the parent: if every enabled child holds v
   * the parent takes v and the pass goes on; otherwise, if the parent does not hold v it
   * becomes indeterminate and the pass goes on; otherwise the pass stops. A root's parent
   * is the tree view itself, where the pass ends.
   */
  function Parents(ns: seq<Node>, p: Path, v: bool): seq<Node>
    requires ValidPath(ns, p)
    decreases |p|
  {
    if |p| == 1 then ns
    else
      ParentPath(ns, p);
      var q := p[..|p| - 1];
      var parent := At(ns, q);
      if AllEnabledEqual(parent.children, v) then
        ReplaceAtSelf(ns, q, parent.(checked := Some(v)));
        Parents(SetCheckedAt(ns, q, Some(v)), q, v)
      else if parent.checked != Some(v) then
        ReplaceAtSelf(ns, q, parent.(checked := None));
        Parents(SetCheckedAt(ns, q, None), q, v)
      else ns
  }

  /** What the pass leaves at an ancestor it changed: v over children that all hold v, or indeterminate over mixed ones. */
  predicate Consistent(n: Node, v: bool) {
    (n.checked == Some(v) && AllEnabledEqual(n.children, v)) ||
    (n.checked == None && !AllEnabledEqual(n.children, v))
  }

  /** Every strict ancestor of p holds v. */
  predicate AncestorsHold(ns: seq<Node>, p: Path, v: bool)
    requires ValidPath(ns, p)
    decreases |p|
  {
    |p| == 1 ||
    (ParentPath(ns, p);
     At(ns, p[..|p| - 1]).checked == Some(v) && AncestorsHold(ns, p[..|p| - 1], v))
  }

  /** The pass changes only check states. */
  lemma {:induction false} ParentsShape(ns: seq<Node>, p: Path, v: bool)
    requires ValidPath(ns, p)
    ensures SameShapeAll(ns, Parents(ns, p, v))
    decreases |p|
  {
    if |p| == 1 {
      forall k | 0 <= k < |ns| ensures SameShape(ns[k], ns[k]) { SameShapeRefl(ns[k]); }
    } else {
      ParentPath(ns, p);
      var q := p[..|p| - 1];
      var parent := At(ns, q);
      if AllEnabledEqual(parent.children, v) || parent.checked != Some(v) {
        var s := if AllEnabledEqual(parent.children, v) then Some(v) else None;
        SameShapeRefl(parent);
        ReplaceShape(ns, q, parent.(checked := s));
        ReplaceAtSelf(ns, q, parent.(checked := s));
        ParentsShape(SetCheckedAt(ns, q, s), q, v);
        SameShapeAllTrans(ns, SetCheckedAt(ns, q, s), Parents(ns, p, v));
      } else {
        forall k | 0 <= k < |ns| ensures SameShape(ns[k], ns[k]) { SameShapeRefl(ns[k]); }
      }
    }
  }

  /** Nothing changes except strict ancestors of p: p itself, its subtree and all other nodes stay. */
  lemma {:induction false} ParentsOutside(ns: seq<Node>, p: Path, v: bool, x: Path)
    requires ValidPath(ns, p) && ValidPath(ns, x) && !(x < p)
    ensures ValidPath(Parents(ns, p, v), x) && At(Parents(ns, p, v), x) == At(ns, x)
    decreases |p|
  {
    if |p| > 1 {
      ParentPath(ns, p);
      var q := p[..|p| - 1];
      var parent := At(ns, q);
      if AllEnabledEqual(parent.children, v) || parent.checked != Some(v) {
        var s := if AllEnabledEqual(parent.children, v) then Some(v) else None;
        ReplaceAtSelf(ns, q, parent.(checked := s));
        assert x <= q ==> x < p;
        SetCheckedAtOther(ns, q, s, x);
        ParentsOutside(SetCheckedAt(ns, q, s), q, v, x);
      }
    }
  }

  /**
   * One step of the pass, at p's parent: it takes v when all its enabled children hold v;
   * otherwise it becomes indeterminate, unless it already holds v, in which case it is left
   * as it was (and the pass stops there).
   */
  lemma ParentsStep(ns: seq<Node>, p: Path, v: bool)
    requires ValidPath(ns, p) && |p| > 1
    ensures ValidPath(ns, p[..|p| - 1]) && ValidPath(Parents(ns, p, v), p[..|p| - 1])
    ensures var parent := At(ns, p[..|p| - 1]);
      At(Parents(ns, p, v), p[..|p| - 1]).checked ==
        (if AllEnabledEqual(parent.children, v) then Some(v)
         else if parent.checked != Some(v) then None
         else parent.checked)
    ensures var parent := At(ns, p[..|p| - 1]);
      !AllEnabledEqual(parent.children, v) && parent.checked == Some(v) ==> Parents(ns, p, v) == ns
  {
    ParentPath(ns, p);
    var q := p[..|p| - 1];
    var parent := At(ns, q);
    if AllEnabledEqual(parent.children, v) || parent.checked != Some(v) {
      var s := if AllEnabledEqual(parent.children, v) then Some(v) else None;
      ReplaceAtSelf(ns, q, parent.(checked := s));
      ParentsOutside(SetCheckedAt(ns, q, s), q, v, q);
    }
  }

  /**
   * At every ancestor the pass changed, the new state agrees with that ancestor's enabled
   * children: v when all of them hold v, indeterminate when they do not.
   */
  lemma {:induction false} ParentsConsistent(ns: seq<Node>, p: Path, v: bool, x: Path)
    requires ValidPath(ns, p) && x != [] && x < p
    ensures ValidPath(ns, x) && ValidPath(Parents(ns, p, v), x)
    ensures At(Parents(ns, p, v), x).checked == At(ns, x).checked || Consistent(At(Parents(ns, p, v), x), v)
    decreases |p|
  {
    ParentPath(ns, p);
    var q := p[..|p| - 1];
    var parent := At(ns, q);
    ReplaceAtAncestor(ns, p, At(ns, p), x);
    assert x <= q;
    if AllEnabledEqual(parent.children, v) || parent.checked != Some(v) {
      var s := if AllEnabledEqual(parent.children, v) then Some(v) else None;
      var ns1 := SetCheckedAt(ns, q, s);
      ReplaceAtSelf(ns, q, parent.(checked := s));
      if x == q {
        ParentsOutside(ns1, q, v, q);
      } else {
        ReplaceAtAncestor(ns, q, parent.(checked := s), x);
        ParentsConsistent(ns1, q, v, x);
      }
    }
  }

  /** Running the pass a second time changes nothing. */
  lemma {:induction false} ParentsIdempotent(ns: seq<Node>, p: Path, v: bool)
    requires ValidPath(ns, p)
    ensures ValidPath(Parents(ns, p, v), p)
    ensures Parents(Parents(ns, p, v), p, v) == Parents(ns, p, v)
    decreases |p|
  {
    ParentsOutside(ns, p, v, p);
    if |p| > 1 {
      ParentPath(ns, p);
      var q := p[..|p| - 1];
      var parent := At(ns, q);
      if AllEnabledEqual(parent.children, v) || parent.checked != Some(v) {
        var s := if AllEnabledEqual(parent.children, v) then Some(v) else None;
        var ns1 := SetCheckedAt(ns, q, s);
        ReplaceAtSelf(ns, q, parent.(checked := s));
        var r := Parents(ns1, q, v);
        ParentsOutside(ns1, q, v, q);
        assert At(r, q) == parent.(checked := s);
        ParentPath(r, p);
        ReplaceAtSame(r, q);
        assert SetCheckedAt(r, q, s) == r;
        ParentsIdempotent(ns1, q, v);
      }
    }
  }

  /** When every ancestor already holds v, the pass changes nothing. */
  lemma {:induction false} ParentsQuiet(ns: seq<Node>, p: Path, v: bool)
    requires ValidPath(ns, p) && AncestorsHold(ns, p, v)
    ensures Parents(ns, p, v) == ns
    decreases |p|
  {
    if |p| > 1 {
      ParentPath(ns, p);
      var q := p[..|p| - 1];
      var parent := At(ns, q);
      if AllEnabledEqual(parent.children, v) {
        ReplaceAtSame(ns, q);
        assert SetCheckedAt(ns, q, Some(v)) == ns;
        ParentsQuiet(ns, q, v);
      }
    }
  }

  /** The pass keeps the forest sound: it only changes ancestors, which are resolvable. */
  lemma {:induction false} ParentsSound(ns: seq<Node>, p: Path, v: bool)
    requires AllSound(ns) && ValidPath(ns, p)
    ensures AllSound(Parents(ns, p, v))
    decreases |p|
  {
    if |p| > 1 {
      ParentPath(ns, p);
      var q := p[..|p| - 1];
      var parent := At(ns, q);
      if AllEnabledEqual(parent.children, v) || parent.checked != Some(v) {
        var s := if AllEnabledEqual(parent.children, v) then Some(v) else None;
        SoundAt(ns, q);
        ReplaceSound(ns, q, parent.(checked := s));
        ReplaceAtSelf(ns, q, parent.(checked := s));
        ParentsSound(SetCheckedAt(ns, q, s), q, v);
      }
    }
  }

  // ---------------------------------------------------------------------------
  // Check box handler: cascade down, then the upward pass
  // ---------------------------------------------------------------------------

  /**
   * _checkBox_Checked (v = true) and _checkBox_Unchecked (v = false) for the node at p:
   * every enabled child receives v, then the upward pass runs from p.
   */
  function Handled(ns: seq<Node>, p: Path, v: bool): seq<Node>
    requires ValidPath(ns, p)
  {
    ReplaceAtSelf(ns, p, Push(At(ns, p), v));
    Parents(ReplaceAt(ns, p, Push(At(ns, p), v)), p, v)
  }

  /** Raising the handler a second time changes nothing. */
  lemma HandledIdempotent(ns: seq<Node>, p: Path, v: bool)
    requires ValidPath(ns, p)
    ensures ValidPath(Handled(ns, p, v), p)
    ensures Handled(Handled(ns, p, v), p, v) == Handled(ns, p, v)
  {
    var n1 := Push(At(ns, p), v);
    var ns1 := ReplaceAt(ns, p, n1);
    ReplaceAtSelf(ns, p, n1);
    var r := Parents(ns1, p, v);
    ParentsOutside(ns1, p, v, p);
    PushIdempotent(At(ns, p), v);
    ReplaceAtSame(r, p);
    ParentsIdempotent(ns1, p, v);
  }

  /**
   * Checking a node whose enabled children and ancestors already hold v changes nothing;
   * in particular the handler raised while the walk sets a fresh node (no children yet,
   * ancestors all holding the walk's value) has no effect.
   */
  lemma HandledQuiet(ns: seq<Node>, p: Path, v: bool)
    requires ValidPath(ns, p) && AllEnabledEqual(At(ns, p).children, v) && AncestorsHold(ns, p, v)
    ensures Handled(ns, p, v) == ns
  {
    PushNoOp(At(ns, p), v);
    ReplaceAtSame(ns, p);
    ParentsQuiet(ns, p, v);
  }

  /** The handler keeps the forest sound and changes only check states. */
  lemma HandledSound(ns: seq<Node>, p: Path, v: bool)
    requires AllSound(ns) && ValidPath(ns, p)
    ensures AllSound(Handled(ns, p, v)) && SameShapeAll(ns, Handled(ns, p, v))
  {
    var n1 := Push(At(ns, p), v);
    var ns1 := ReplaceAt(ns, p, n1);
    ReplaceAtSelf(ns, p, n1);
    SoundAt(ns, p);
    PushSound(At(ns, p), v);
    ReplaceSound(ns, p, n1);
    ParentsSound(ns1, p, v);
    PushOnlySets(At(ns, p), v);
    ReplaceShape(ns, p, n1);
    ParentsShape(ns1, p, v);
    SameShapeAllTrans(ns, ns1, Handled(ns, p, v));
  }

  // ---------------------------------------------------------------------------
  // Select root files
  // ---------------------------------------------------------------------------

  /** Every resolvable node among cs is checked; missing ones are skipped. */
  predicate AllResolvableChecked(cs: seq<Node>) {
    forall k :: 0 <= k < |cs| && cs[k].resource.Some? ==> cs[k].checked == Some(true)
  }

  /** Some resolvable node among cs has a resolvable child that is not checked. */
  predicate SomeChildPartial(cs: seq<Node>) {
    exists k :: 0 <= k < |cs| && cs[k].resource.Some? && !AllResolvableChecked(cs[k].children)
  }

  lemma SomeChildPartialAppend(cs: seq<Node>, c: Node)
    ensures SomeChildPartial(cs + [c]) <==> SomeChildPartial(cs) || (c.resource.Some? && !AllResolvableChecked(c.children))
  {
    var ds := cs + [c];
    assert ds[|cs|] == c;
    if SomeChildPartial(cs) {
      var k :| 0 <= k < |cs| && cs[k].resource.Some? && !AllResolvableChecked(cs[k].children);
      assert ds[k] == cs[k];
    }
    if SomeChildPartial(ds) {
      var k :| 0 <= k < |ds| && ds[k].resource.Some? && !AllResolvableChecked(ds[k].children);
      if k < |cs| {
        assert ds[k] == cs[k];
      }
    }
  }

  /** A resolvable child becomes checked when all its resolvable children are, indeterminate otherwise. */
  function SelectChild(c: Node): Node {
    if c.resource.None? then c
    else c.(checked := if AllResolvableChecked(c.children) then Some(true) else None)
  }

  /**
   * The selected node t: set checked without a cascade when resolvable, its children settled
   * by SelectChild, and t itself indeterminate when some resolvable child was not fully checked.
   */
  function SelectRoot(t: Node): Node {
    t.(checked := if SomeChildPartial(t.children) then None
                  else if t.resource.Some? then Some(true)
                  else t.checked,
       children := seq(|t.children|, k requires 0 <= k < |t.children| => SelectChild(t.children[k])))
  }

  /** _menuItemsSelectRootFiles_Click on the node at p: the upward pass runs only when p ends checked. */
  function SelectRootFiles(ns: seq<Node>, p: Path): seq<Node>
    requires ValidPath(ns, p)
  {
    var t := SelectRoot(At(ns, p));
    ReplaceAtSelf(ns, p, t);
    if t.checked == Some(true) then Parents(ReplaceAt(ns, p, t), p, true)
    else ReplaceAt(ns, p, t)
  }

  /**
   * After "select root files" a resolvable selected node is checked exactly when all its
   * resolvable children are; a missing selected node keeps its state. Each resolvable child is
   * checked or indeterminate according to its own resolvable children, missing children stay
   * as they were, and no grandchild changes.
   */
  lemma SelectRootSettles(t: Node)
    requires Sound(t)
    ensures var r := SelectRoot(t);
      SameShape(t, r) &&
      (t.resource.Some? ==> (r.checked == Some(true) <==> AllResolvableChecked(r.children))) &&
      (t.resource.Some? && r.checked != Some(true) ==> r.checked == None) &&
      (t.resource.None? ==> r == t)
    ensures var r := SelectRoot(t);
      forall k :: 0 <= k < |t.children| ==>
        r.children[k].children == t.children[k].children &&
        (t.children[k].resource.None? ==> r.children[k] == t.children[k]) &&
        (t.children[k].resource.Some? ==>
           (r.children[k].checked == Some(true) <==> AllResolvableChecked(t.children[k].children)) &&
           (r.children[k].checked != Some(true) ==> r.children[k].checked == None))
  {
    var r := SelectRoot(t);
    forall k | 0 <= k < |t.children| ensures SameShape(t.children[k], r.children[k]) {
      SameShapeRefl(t.children[k]);
    }
    if t.resource.Some? {
      if SomeChildPartial(t.children) {
        var k :| 0 <= k < |t.children| && t.children[k].resource.Some? && !AllResolvableChecked(t.children[k].children);
        assert r.children[k].resource.Some? && r.children[k].checked == None;
      }
    } else {
      assert t.children == [];
      assert r.children == t.children;
    }
  }

  /** "Select root files" keeps the forest sound and changes only check states. */
  lemma SelectRootFilesSound(ns: seq<Node>, p: Path)
    requires AllSound(ns) && ValidPath(ns, p)
    ensures AllSound(SelectRootFiles(ns, p)) && SameShapeAll(ns, SelectRootFiles(ns, p))
  {
    var t := At(ns, p);
    var r := SelectRoot(t);
    SoundAt(ns, p);
    SelectRootSettles(t);
    assert Sound(r) by {
      forall k | 0 <= k < |r.children| ensures Sound(r.children[k]) {
        assert Sound(t.children[k]);
      }
      if SomeChildPartial(t.children) {
        var k :| 0 <= k < |t.children| && t.children[k].resource.Some? && !AllResolvableChecked(t.children[k].children);
      }
    }
    ReplaceSound(ns, p, r);
    ReplaceShape(ns, p, r);
    ReplaceAtSelf(ns, p, r);
    if r.checked == Some(true) {
      ParentsSound(ReplaceAt(ns, p, r), p, true);
      ParentsShape(ReplaceAt(ns, p, r), p, true);
      SameShapeAllTrans(ns, ReplaceAt(ns, p, r), SelectRootFiles(ns, p));
    }
  }
}

=== FILE: tree.dfy ===
/**
 * The dependency tree shown by the extractor: one node per MapExtractorTreeViewItem.
 * A forest (the TreeView's Items) is a sequence of root nodes; a node inside it is
 * addressed by the sequence of child positions leading to it from the roots.
 */
module Tree {
  import opened Wrappers
  import opened Resources

  /**
   * name: the header text; resource: ResourcePath (None when the resource is missing);
   * enabled: CheckBoxHeader.IsEnabled; checked: CheckBoxHeader.IsChecked (None is indeterminate);
   * children: Items, in insertion order.
   */
  datatype Node = Node(name: string, resource: Option<TkPath>, enabled: bool, checked: Option<bool>, children: seq<Node>)

  /**
   * What every node built by the walk satisfies and every selection operation keeps:
   * a node is enabled exactly when its resource was found, and a missing node has no
   * children and keeps the check box's initial unchecked state.
   */
  predicate Sound(n: Node) {
    (n.enabled <==> n.resource.Some?) &&
    (n.resource.None? ==> n.children == [] && n.checked == Some(false)) &&
    forall k :: 0 <= k < |n.children| ==> Sound(n.children[k])
  }

  predicate AllSound(ns: seq<Node>) {
    forall k :: 0 <= k < |ns| ==> Sound(ns[k])
  }

  /** Every enabled node of the subtree holds the same definite state v. */
  predicate Uniform(n: Node, v: bool) {
    (n.enabled ==> n.checked == Some(v)) &&
    forall k :: 0 <= k < |n.children| ==> Uniform(n.children[k], v)
  }

  predicate AllUniform(ns: seq<Node>, v: bool) {
    forall k :: 0 <= k < |ns| ==> Uniform(ns[k], v)
  }

  /**
   * Every resource of the subtree is what the resolver finds at the resource's own relative
   * path (the resolver a walk looked it up with).
   */
  predicate Resolved(res: Resolver, n: Node) {
    (n.resource.Some? ==> FindTkPath(res, n.resource.value.relativePath) == n.resource) &&
    forall k :: 0 <= k < |n.children| ==> Resolved(res, n.children[k])
  }

  predicate AllResolved(res: Resolver, ns: seq<Node>) {
    forall k :: 0 <= k < |ns| ==> Resolved(res, ns[k])
  }

  /** The two trees have the same nodes in the same places; only check states may differ. */
  predicate SameShape(a: Node, b: Node) {
    a.name == b.name && a.resource == b.resource && a.enabled == b.enabled &&
    |a.children| == |b.children| &&
    forall k :: 0 <= k < |a.children| ==> SameShape(a.children[k], b.children[k])
  }

  predicate SameShapeAll(ns: seq<Node>, ms: seq<Node>) {
    |ns| == |ms| && forall k :: 0 <= k < |ns| ==> SameShape(ns[k], ms[k])
  }

  /** The position of a node: a root index followed by child indices. */
  type Path = seq<nat>

  predicate ValidPath(ns: seq<Node>, p: Path)
    decreases p
  {
    |p| >= 1 && p[0] < |ns| && (|p| == 1 || ValidPath(ns[p[0]].children, p[1..]))
  }

  function At(ns: seq<Node>, p: Path): Node
    requires ValidPath(ns, p)
    decreases p
  {
    if |p| == 1 then ns[p[0]] else At(ns[p[0]].children, p[1..])
  }

  /** The forest with the subtree at p replaced by n. */
  function ReplaceAt(ns: seq<Node>, p: Path, n: Node): (r: seq<Node>)
    requires ValidPath(ns, p)
    ensures |r| == |ns|
    decreases p
  {
    if |p| == 1 then ns[p[0] := n]
    else ns[p[0] := ns[p[0]].(children := ReplaceAt(ns[p[0]].children, p[1..], n))]
  }

  /** The forest with only the check state of the node at p changed. */
  function SetCheckedAt(ns: seq<Node>, p: Path, s: Option<bool>): seq<Node>
    requires ValidPath(ns, p)
  {
    ReplaceAt(ns, p, At(ns, p).(checked := s))
  }

  lemma SameShapeRefl(a: Node)
    ensures SameShape(a, a)
  {
  }

  lemma SameShapeTrans(a: Node, b: Node, c: Node)
    requires SameShape(a, b) && SameShape(b, c)
    ensures SameShape(a, c)
  {
  }

  lemma SameShapeAllTrans(ns: seq<Node>, ms: seq<Node>, ls: seq<Node>)
    requires SameShapeAll(ns, ms) && SameShapeAll(ms, ls)
    ensures SameShapeAll(ns, ls)
  {
    forall k | 0 <= k < |ns| ensures SameShape(ns[k], ls[k]) {
      SameShapeTrans(ns[k], ms[k], ls[k]);
    }
  }

  /** Paths of one forest are paths of every forest of the same shape, and lead to nodes of the same shape. */
  lemma {:induction false} ShapePaths(ns: seq<Node>, ms: seq<Node>, p: Path)
    requires SameShapeAll(ns, ms) && ValidPath(ns, p)
    ensures ValidPath(ms, p) && SameShape(At(ns, p), At(ms, p))
    decreases p
  {
    if |p| > 1 {
      ShapePaths(ns[p[0]].children, ms[p[0]].children, p[1..]);
    }
  }

  /** Replacing a subtree by one of the same shape keeps the forest's shape. */
  lemma {:induction false} ReplaceShape(ns: seq<Node>, p: Path, n: Node)
    requires ValidPath(ns, p) && SameShape(At(ns, p), n)
    ensures SameShapeAll(ns, ReplaceAt(ns, p, n))
    decreases p
  {
    var r := ReplaceAt(ns, p, n);
    if |p| > 1 {
      ReplaceShape(ns[p[0]].children, p[1..], n);
    }
    forall k | 0 <= k < |ns| ensures SameShape(ns[k], r[k]) {
      if k != p[0] { SameShapeRefl(ns[k]); }
    }
  }

  /** The node at p after the replacement is the replacement. */
  lemma {:induction false} ReplaceAtSelf(ns: seq<Node>, p: Path, n: Node)
    requires ValidPath(ns, p)
    ensures ValidPath(ReplaceAt(ns, p, n), p) && At(ReplaceAt(ns, p, n), p) == n
    decreases p
  {
    if |p| > 1 {
      ReplaceAtSelf(ns[p[0]].children, p[1..], n);
    }
  }

  /** A node that is neither inside the replaced subtree nor one of its ancestors is untouched. */
  lemma {:induction false} ReplaceAtOther(ns: seq<Node>, p: Path, n: Node, x: Path)
    requires ValidPath(ns, p) && ValidPath(ns, x) && !(x <= p) && !(p <= x)
    ensures ValidPath(ReplaceAt(ns, p, n), x) && At(ReplaceAt(ns, p, n), x) == At(ns, x)
    decreases p
  {
    if x[0] == p[0] {
      assert |x| > 1 && |p| > 1 by {
        assert |p| == 1 ==> p <= x;
        assert |x| == 1 ==> x <= p;
      }
      assert !(x[1..] <= p[1..]) && !(p[1..] <= x[1..]) by {
        assert x == [x[0]] + x[1..] && p == [p[0]] + p[1..];
      }
      ReplaceAtOther(ns[p[0]].children, p[1..], n, x[1..]);
    }
  }

  /** An ancestor of the replaced node keeps its own fields; only its subtree changes. */
  lemma {:induction false} ReplaceAtAncestor(ns: seq<Node>, p: Path, n: Node, x: Path)
    requires ValidPath(ns, p) && x != [] && x < p
    ensures ValidPath(ns, x) && ValidPath(ReplaceAt(ns, p, n), x)
    ensures At(ReplaceAt(ns, p, n), x).checked == At(ns, x).checked
    ensures At(ReplaceAt(ns, p, n), x).name == At(ns, x).name
    decreases p
  {
    assert x[0] == p[0];
    if |x| > 1 {
      assert x[1..] < p[1..];
      ReplaceAtAncestor(ns[p[0]].children, p[1..], n, x[1..]);
    }
  }

  /** The children of a node are reached by extending its path by one position. */
  lemma {:induction false} ChildPath(ns: seq<Node>, p: Path, k: nat)
    requires ValidPath(ns, p) && k < |At(ns, p).children|
    ensures ValidPath(ns, p + [k]) && At(ns, p + [k]) == At(ns, p).children[k]
    decreases p
  {
    if |p| > 1 {
      assert (p + [k])[1..] == p[1..] + [k];
      ChildPath(ns[p[0]].children, p[1..], k);
    }
  }

  /** The parent of a node is reached by dropping the last position. */
  lemma {:induction false} ParentPath(ns: seq<Node>, p: Path)
    requires ValidPath(ns, p) && |p| > 1
    ensures ValidPath(ns, p[..|p| - 1])
    ensures p[|p| - 1] < |At(ns, p[..|p| - 1]).children|
    ensures At(ns, p[..|p| - 1]).children[p[|p| - 1]] == At(ns, p)
    decreases p
  {
    if |p| > 2 {
      assert p[1..][..|p| - 2] == p[..|p| - 1][1..];
      ParentPath(ns[p[0]].children, p[1..]);
    }
  }

  /** Sound forests have sound nodes everywhere. */
  lemma {:induction false} SoundAt(ns: seq<Node>, p: Path)
    requires AllSound(ns) && ValidPath(ns, p)
    ensures Sound(At(ns, p))
    decreases p
  {
    if |p| > 1 {
      SoundAt(ns[p[0]].children, p[1..]);
    }
  }

  /** Resolved forests have resolved nodes everywhere. */
  lemma {:induction false} ResolvedAt(res: Resolver, ns: seq<Node>, p: Path)
    requires AllResolved(res, ns) && ValidPath(ns, p)
    ensures Resolved(res, At(ns, p))
    decreases p
  {
    if |p| > 1 {
      ResolvedAt(res, ns[p[0]].children, p[1..]);
    }
  }

  /** Changing check states keeps every resource where it was, so a resolved tree stays resolved. */
  lemma {:induction false} ResolvedShape(res: Resolver, a: Node, b: Node)
    requires SameShape(a, b) && Resolved(res, a)
    ensures Resolved(res, b)
    decreases a
  {
    forall k | 0 <= k < |b.children| ensures Resolved(res, b.children[k]) {
      ResolvedShape(res, a.children[k], b.children[k]);
    }
  }

  /** Putting back the node that is already there changes nothing. */
  lemma {:induction false} ReplaceAtSame(ns: seq<Node>, p: Path)
    requires ValidPath(ns, p)
    ensures ReplaceAt(ns, p, At(ns, p)) == ns
    decreases p
  {
    if |p| > 1 {
      ReplaceAtSame(ns[p[0]].children, p[1..]);
    }
  }

  /** A replacement that keeps the children leaves every node below it as it was. */
  lemma {:induction false} ReplaceAtBelow(ns: seq<Node>, p: Path, n: Node, x: Path)
    requires ValidPath(ns, p) && ValidPath(ns, x) && p < x && n.children == At(ns, p).children
    ensures ValidPath(ReplaceAt(ns, p, n), x) && At(ReplaceAt(ns, p, n), x) == At(ns, x)
    decreases p
  {
    assert x[0] == p[0];
    if |p| > 1 {
      assert p[1..] < x[1..];
      ReplaceAtBelow(ns[p[0]].children, p[1..], n, x[1..]);
    }
  }

  /** Changing the state of the node at p changes no node except p and its ancestors. */
  lemma SetCheckedAtOther(ns: seq<Node>, p: Path, s: Option<bool>, x: Path)
    requires ValidPath(ns, p) && ValidPath(ns, x) && !(x <= p)
    ensures ValidPath(SetCheckedAt(ns, p, s), x) && At(SetCheckedAt(ns, p, s), x) == At(ns, x)
  {
    if p <= x {
      ReplaceAtBelow(ns, p, At(ns, p).(checked := s), x);
    } else {
      ReplaceAtOther(ns, p, At(ns, p).(checked := s), x);
    }
  }

  /** Replacing a subtree by a sound one keeps the forest sound. */
  lemma {:induction false} ReplaceSound(ns: seq<Node>, p: Path, n: Node)
    requires AllSound(ns) && ValidPath(ns, p) && Sound(n)
    ensures AllSound(ReplaceAt(ns, p, n))
    decreases p
  {
    if |p| > 1 {
      ReplaceSound(ns[p[0]].children, p[1..], n);
    }
  }

  lemma AllSoundAppend(ns: seq<Node>, n: Node)
    requires AllSound(ns) && Sound(n)
    ensures AllSound(ns + [n])
  {
  }
}

=== FILE: walk.dfy ===
/**
 * The dependency walk (_addNode): one call creates the node for one referenced file,
 * resolves it, and recurses into the distinct references its parser reports.
 *
 * The cancel predicate is polled at fixed points; it is modelled as turning true from
 * a given poll onwards, and the number of polls made so far is threaded through the calls.
 */
module Walk {
  import opened Wrappers
  import opened Paths
  import opened Resources
  import opened Tree

  /** The cancelMethod argument: null (never cancels) or a predicate that is true from poll n on. */
  datatype Cancel = Never | AfterPolls(n: nat)

  predicate Cancelled(c: Cancel, polls: nat) {
    c.AfterPolls? && polls >= c.n
  }

  /**
   * The children of a node correspond, in order, to a prefix of the distinct references
   * `refs`, each looked up under `dir`.
   */
  predicate FollowsReferences(res: Resolver, children: seq<Node>, refs: seq<string>, dir: string) {
    |children| <= |refs| &&
    forall k :: 0 <= k < |children| ==>
      children[k].name == refs[k] && children[k].resource == FindTkPath(res, Combine(dir, refs[k]))
  }

  /**
   * What the children of a resolvable node named `name`, found under `location`, are:
   * none when its parser throws; otherwise a prefix of its distinct references, each looked
   * up under the directory for the node's kind, and all of them when `complete` holds.
   */
  predicate Expansion(res: Resolver, parsers: Parsers, name: string, location: string,
                      children: seq<Node>, complete: bool)
  {
    match GetData(res, Combine(location, name))
    case None => children == []
    case Some(data) =>
      var ext := Extension(name);
      match Dependencies(parsers, ext, data)
      case None => children == []
      case Some(refs) =>
        FollowsReferences(res, children, refs, ChildLocation(ext, location)) &&
        (complete ==> |children| == |refs|)
  }

  /**
   * The subtree n is what the walk builds for the name n.name looked up under `location`:
   * the node carries the resource found there, is enabled and set to isChecked exactly when
   * that resource exists (disabled and unchecked otherwise), its children are the expansion of
   * its references, and each child is in turn walked under the directory for n's kind with
   * one level of fuel less. `complete` (no cancellation) asks for every reference at every
   * level the fuel reaches. Without it the walk was cut at one point in pre-order: at every
   * level only the last child may be cut short, and every child before it is complete.
   */
  predicate Walked(res: Resolver, parsers: Parsers, n: Node, location: string, isChecked: bool,
                   fuel: nat, complete: bool)
    decreases fuel, 1
  {
    n.resource == FindTkPath(res, Combine(location, n.name)) &&
    n.enabled == n.resource.Some? && n.checked == Some(n.enabled && isChecked) &&
    Expansion(res, parsers, n.name, location, n.children, complete && fuel > 0) &&
    (n.resource.None? || fuel == 0 ==> n.children == []) &&
    (fuel > 0 ==> AllWalked(res, parsers, n.children, ChildLocation(Extension(n.name), location), isChecked, fuel - 1, complete))
  }

  /**
   * Every node of cs is walked under dir: all but the last completely, the last one
   * completely when `complete` holds.
   */
  predicate AllWalked(res: Resolver, parsers: Parsers, cs: seq<Node>, dir: string, isChecked: bool,
                      fuel: nat, complete: bool)
    decreases fuel, 2
  {
    (forall k {:trigger Walked(res, parsers, cs[k], dir, isChecked, fuel, true)} :: 0 <= k < |cs| - 1 ==>
       Walked(res, parsers, cs[k], dir, isChecked, fuel, true)) &&
    (cs != [] ==> Walked(res, parsers, cs[|cs| - 1], dir, isChecked, fuel, complete))
  }

  /** Walked, established from its parts. */
  lemma WalkedOf(res: Resolver, parsers: Parsers, n: Node, location: string, isChecked: bool,
                 fuel: nat, complete: bool)
    requires n.resource == FindTkPath(res, Combine(location, n.name))
    requires n.enabled == n.resource.Some? && n.checked == Some(n.enabled && isChecked)
    requires Expansion(res, parsers, n.name, location, n.children, complete && fuel > 0)
    requires n.resource.None? || fuel == 0 ==> n.children == []
    requires fuel > 0 ==> AllWalked(res, parsers, n.children, ChildLocation(Extension(n.name), location), isChecked, fuel - 1, complete)
    ensures Walked(res, parsers, n, location, isChecked, fuel, complete)
  {
  }

  /**
   * A walked subtree is sound (a node is enabled exactly when it resolves, and a missing one
   * has no children and stays unchecked) and every enabled node in it is set to isChecked.
   */
  lemma {:induction false} WalkedSound(res: Resolver, parsers: Parsers, n: Node, location: string, isChecked: bool,
                                       fuel: nat, complete: bool)
    requires Walked(res, parsers, n, location, isChecked, fuel, complete)
    ensures Sound(n) && Uniform(n, isChecked)
    decreases fuel
  {
    if fuel > 0 {
      var cs, dir := n.children, ChildLocation(Extension(n.name), location);
      forall k | 0 <= k < |cs| ensures Sound(cs[k]) && Uniform(cs[k], isChecked) {
        if k < |cs| - 1 {
          WalkedSound(res, parsers, cs[k], dir, isChecked, fuel - 1, true);
        } else {
          WalkedSound(res, parsers, cs[k], dir, isChecked, fuel - 1, complete);
        }
      }
    }
  }

  /** Every resource a walk records is what the resolver finds at the resource's relative path. */
  lemma {:induction false} WalkedResolved(res: Resolver, parsers: Parsers, n: Node, location: string, isChecked: bool,
                                          fuel: nat, complete: bool)
    requires Walked(res, parsers, n, location, isChecked, fuel, complete)
    ensures Resolved(res, n)
    decreases fuel
  {
    if fuel > 0 {
      var cs, dir := n.children, ChildLocation(Extension(n.name), location);
      forall k | 0 <= k < |cs| ensures Resolved(res, cs[k]) {
        if k < |cs| - 1 {
          WalkedResolved(res, parsers, cs[k], dir, isChecked, fuel - 1, true);
        } else {
          WalkedResolved(res, parsers, cs[k], dir, isChecked, fuel - 1, complete);
        }
      }
    }
  }

  /** A complete walk is in particular one that may have been cut. */
  lemma {:induction false} WalkedWeaken(res: Resolver, parsers: Parsers, n: Node, location: string, isChecked: bool,
                                        fuel: nat)
    requires Walked(res, parsers, n, location, isChecked, fuel, true)
    ensures Walked(res, parsers, n, location, isChecked, fuel, false)
    decreases fuel
  {
    if fuel > 0 && n.children != [] {
      var cs, dir := n.children, ChildLocation(Extension(n.name), location);
      assert Walked(res, parsers, cs[|cs| - 1], dir, isChecked, fuel - 1, true);
      WalkedWeaken(res, parsers, cs[|cs| - 1], dir, isChecked, fuel - 1);
    }
  }

  /** In a complete walk every child is walked completely. */
  lemma AllWalkedComplete(res: Resolver, parsers: Parsers, cs: seq<Node>, dir: string, isChecked: bool, fuel: nat)
    requires AllWalked(res, parsers, cs, dir, isChecked, fuel, true)
    ensures forall k :: 0 <= k < |cs| ==> Walked(res, parsers, cs[k], dir, isChecked, fuel, true)
  {
    forall k | 0 <= k < |cs| ensures Walked(res, parsers, cs[k], dir, isChecked, fuel, true) {
      if k < |cs| - 1 {
        assert Walked(res, parsers, cs[k], dir, isChecked, fuel, true);
      }
    }
  }

  /** The references the walk follows for `name` under `location`: none when it is missing or its parser throws. */
  function References(res: Resolver, parsers: Parsers, name: string, location: string): seq<string> {
    match GetData(res, Combine(location, name))
    case None => []
    case Some(data) =>
      match Dependencies(parsers, Extension(name), data)
      case None => []
      case Some(refs) => refs
  }

  /** A complete walk with fuel left has one completely walked child per reference, in order. */
  lemma WalkedCompleteChildren(res: Resolver, parsers: Parsers, n: Node, location: string, isChecked: bool, fuel: nat)
    requires fuel > 0 && Walked(res, parsers, n, location, isChecked, fuel, true)
    ensures var refs := References(res, parsers, n.name, location);
      |n.children| == |refs| && forall k :: 0 <= k < |refs| ==> n.children[k].name == refs[k]
    ensures forall k :: 0 <= k < |n.children| ==>
      Walked(res, parsers, n.children[k], ChildLocation(Extension(n.name), location), isChecked, fuel - 1, true)
  {
    AllWalkedComplete(res, parsers, n.children, ChildLocation(Extension(n.name), location), isChecked, fuel - 1);
  }

  /**
   * A complete walk is determined by its inputs: two complete walks of the same name under
   * the same location build the same subtree.
   */
  lemma {:induction false} WalkedUnique(res: Resolver, parsers: Parsers, n: Node, m: Node, location: string,
                                        isChecked: bool, fuel: nat)
    requires n.name == m.name
    requires Walked(res, parsers, n, location, isChecked, fuel, true)
    requires Walked(res, parsers, m, location, isChecked, fuel, true)
    ensures n == m
    decreases fuel
  {
    if fuel > 0 {
      var dir := ChildLocation(Extension(n.name), location);
      WalkedCompleteChildren(res, parsers, n, location, isChecked, fuel);
      WalkedCompleteChildren(res, parsers, m, location, isChecked, fuel);
      forall k | 0 <= k < |n.children| ensures n.children[k] == m.children[k] {
        WalkedUnique(res, parsers, n.children[k], m.children[k], dir, isChecked, fuel - 1);
      }
      assert n.children == m.children;
    }
  }

  /**
   * The reference definition of _addNode(cancelMethod, name, location, parent, isChecked)
   * entered after `polls` polls: the node it attaches (None when its entry poll sees the
   * cancel) and the number of polls made when it returns.
   */
  function WalkFrom(res: Resolver, parsers: Parsers, cancel: Cancel, polls: nat,
                    name: string, location: string, isChecked: bool, fuel: nat): (w: (Option<Node>, nat))
    ensures w.1 > polls
    ensures w.0.None? <==> Cancelled(cancel, polls)
    ensures w.0.Some? ==> w.0.value.name == name
    decreases fuel, 2, 0
  {
    if Cancelled(cancel, polls) then (None, polls + 1)
    else if GetData(res, Combine(location, name)).None? then (Some(Node(name, None, false, Some(false), [])), polls + 1)
    else
      var e := ExpandFrom(res, parsers, cancel, polls + 1, name, location, isChecked, fuel);
      (Some(Node(name, FindTkPath(res, Combine(location, name)), true, Some(isChecked), e.0)), e.1)
  }

  /** The children of a resolvable node: the poll before the parse, the parse, then the loop over the references. */
  function ExpandFrom(res: Resolver, parsers: Parsers, cancel: Cancel, polls: nat,
                      name: string, location: string, isChecked: bool, fuel: nat): (e: (seq<Node>, nat))
    requires GetData(res, Combine(location, name)).Some?
    ensures e.1 > polls
    ensures Cancelled(cancel, polls) || fuel == 0 ==> e.0 == []
    decreases fuel, 1, 0
  {
    if Cancelled(cancel, polls) || fuel == 0 then ([], polls + 1)
    else match Dependencies(parsers, Extension(name), GetData(res, Combine(location, name)).value)
      case None => ([], polls + 1)
      case Some(refs) =>
        ChildrenFrom(res, parsers, cancel, polls + 1, refs, |refs|, ChildLocation(Extension(name), location), isChecked, fuel - 1)
  }

  /**
   * The loop over the references refs[..i], entered after `polls` polls: the nodes it attached,
   * in order, and the polls made. Every reference costs at least its entry poll.
   */
  function ChildrenFrom(res: Resolver, parsers: Parsers, cancel: Cancel, polls: nat, refs: seq<string>, i: nat,
                        dir: string, isChecked: bool, fuel: nat): (c: (seq<Node>, nat))
    requires i <= |refs|
    ensures c.1 >= polls + i && |c.0| <= i
    decreases fuel, 3, i
  {
    if i == 0 then ([], polls)
    else
      var prev := ChildrenFrom(res, parsers, cancel, polls, refs, i - 1, dir, isChecked, fuel);
      var w := WalkFrom(res, parsers, cancel, prev.1, refs[i - 1], dir, isChecked, fuel);
      (if w.0.Some? then prev.0 + [w.0.value] else prev.0, w.1)
  }

  /**
   * A walk whose cancel predicate had not turned true by its last poll is the walk without a
   * cancel method: the same nodes and the same polls.
   */
  lemma {:induction false} WalkFromUncancelled(res: Resolver, parsers: Parsers, cancel: Cancel, polls: nat,
                                               name: string, location: string, isChecked: bool, fuel: nat)
    requires !Cancelled(cancel, WalkFrom(res, parsers, cancel, polls, name, location, isChecked, fuel).1)
    ensures WalkFrom(res, parsers, cancel, polls, name, location, isChecked, fuel) ==
            WalkFrom(res, parsers, Never, polls, name, location, isChecked, fuel)
    decreases fuel, 2, 0
  {
    if !Cancelled(cancel, polls) && GetData(res, Combine(location, name)).Some? {
      ExpandFromUncancelled(res, parsers, cancel, polls + 1, name, location, isChecked, fuel);
    }
  }

  lemma {:induction false} ExpandFromUncancelled(res: Resolver, parsers: Parsers, cancel: Cancel, polls: nat,
                                                 name: string, location: string, isChecked: bool, fuel: nat)
    requires GetData(res, Combine(location, name)).Some?
    requires !Cancelled(cancel, ExpandFrom(res, parsers, cancel, polls, name, location, isChecked, fuel).1)
    ensures ExpandFrom(res, parsers, cancel, polls, name, location, isChecked, fuel) ==
            ExpandFrom(res, parsers, Never, polls, name, location, isChecked, fuel)
    decreases fuel, 1, 0
  {
    if fuel > 0 {
      var deps := Dependencies(parsers, Extension(name), GetData(res, Combine(location, name)).value);
      if deps.Some? {
        ChildrenFromUncancelled(res, parsers, cancel, polls + 1, deps.value, |deps.value|,
                                ChildLocation(Extension(name), location), isChecked, fuel - 1);
      }
    }
  }

  lemma {:induction false} ChildrenFromUncancelled(res: Resolver, parsers: Parsers, cancel: Cancel, polls: nat,
                                                   refs: seq<string>, i: nat, dir: string, isChecked: bool, fuel: nat)
    requires i <= |refs|
    requires !Cancelled(cancel, ChildrenFrom(res, parsers, cancel, polls, refs, i, dir, isChecked, fuel).1)
    ensures ChildrenFrom(res, parsers, cancel, polls, refs, i, dir, isChecked, fuel) ==
            ChildrenFrom(res, parsers, Never, polls, refs, i, dir, isChecked, fuel)
    decreases fuel, 3, i
  {
    if i > 0 {
      var prev := ChildrenFrom(res, parsers, cancel, polls, refs, i - 1, dir, isChecked, fuel);
      ChildrenFromUncancelled(res, parsers, cancel, polls, refs, i - 1, dir, isChecked, fuel);
      WalkFromUncancelled(res, parsers, cancel, prev.1, refs[i - 1], dir, isChecked, fuel);
    }
  }

  /**
   * _addNode(cancelMethod, name, location, parent, isChecked), returning the node that _addNode
   * attaches to `parent` (None when the entry poll cancelled and nothing was attached).
   * `fuel` bounds the depth of the recursion, which the C# code leaves unbounded.
   */
  method AddNode(res: Resolver, parsers: Parsers, cancel: Cancel, polls: nat,
                 name: string, location: string, isChecked: bool, fuel: nat)
    returns (r: Option<Node>, pollsOut: nat)
    // the node and the polls made are those of the reference definition
    ensures (r, pollsOut) == WalkFrom(res, parsers, cancel, polls, name, location, isChecked, fuel)
    ensures pollsOut > polls
    // cancelled on entry: no node is created
    ensures r.None? <==> Cancelled(cancel, polls)
    ensures r.Some? ==> Sound(r.value) && Uniform(r.value, isChecked)
    ensures r.Some? ==> r.value.name == name
    ensures r.Some? ==> r.value.resource == FindTkPath(res, Combine(location, name))
    // a missing node is disabled, keeps its initial unchecked state and gets no children
    ensures r.Some? && r.value.resource.None? ==> !r.value.enabled && r.value.checked == Some(false) && r.value.children == []
    ensures r.Some? && r.value.resource.Some? ==> r.value.enabled && r.value.checked == Some(isChecked)
    // cancelled after the node was attached: it stays, without children
    ensures r.Some? && Cancelled(cancel, polls + 1) ==> r.value.children == []
    ensures r.Some? && fuel == 0 ==> r.value.children == []
    // children follow the references; without cancellation every distinct reference becomes a child
    ensures r.Some? ==> Expansion(res, parsers, name, location, r.value.children, fuel > 0 && !Cancelled(cancel, pollsOut))
    // every level below follows the same rules; unless cancelled by the last poll, every reference is walked
    ensures r.Some? ==> Walked(res, parsers, r.value, location, isChecked, fuel, !Cancelled(cancel, pollsOut))
    decreases fuel, 3
  {
    pollsOut := polls + 1;
    if Cancelled(cancel, polls) {
      return None, pollsOut;
    }
    var path := Combine(location, name);
    if GetData(res, path).None? {
      // _disableNode: disabled, no resource, no children
      r := Some(Node(name, None, false, Some(false), []));
      WalkedOf(res, parsers, r.value, location, isChecked, fuel, !Cancelled(cancel, pollsOut));
    } else {
      var node;
      node, pollsOut := ExpandNode(res, parsers, cancel, pollsOut, name, location, isChecked, fuel);
      r := Some(node);
    }
    WalkedSound(res, parsers, r.value, location, isChecked, fuel, !Cancelled(cancel, pollsOut));
  }

  /**
   * The resolvable branch of _addNode: the node is enabled and checked with isChecked, then,
   * after a cancel poll, its parser's references become its children.
   */
  method ExpandNode(res: Resolver, parsers: Parsers, cancel: Cancel, polls: nat,
                    name: string, location: string, isChecked: bool, fuel: nat)
    returns (n: Node, pollsOut: nat)
    requires GetData(res, Combine(location, name)).Some?
    ensures (n.children, pollsOut) == ExpandFrom(res, parsers, cancel, polls, name, location, isChecked, fuel)
    ensures pollsOut > polls
    ensures n.name == name && n.resource == FindTkPath(res, Combine(location, name))
    ensures n.enabled && n.checked == Some(isChecked)
    ensures Cancelled(cancel, polls) || fuel == 0 ==> n.children == []
    ensures Expansion(res, parsers, name, location, n.children, fuel > 0 && !Cancelled(cancel, pollsOut))
    ensures Walked(res, parsers, n, location, isChecked, fuel, !Cancelled(cancel, pollsOut))
    decreases fuel, 2
  {
    var children;
    children, pollsOut := ExpandChildren(res, parsers, cancel, polls, name, location, isChecked, fuel);
    n := Node(name, FindTkPath(res, Combine(location, name)), true, Some(isChecked), children);
    WalkedOf(res, parsers, n, location, isChecked, fuel, !Cancelled(cancel, pollsOut));
  }

  /** The children _addNode gives a resolvable node: the poll, the parse and the loop. */
  method ExpandChildren(res: Resolver, parsers: Parsers, cancel: Cancel, polls: nat,
                        name: string, location: string, isChecked: bool, fuel: nat)
    returns (children: seq<Node>, pollsOut: nat)
    requires GetData(res, Combine(location, name)).Some?
    ensures (children, pollsOut) == ExpandFrom(res, parsers, cancel, polls, name, location, isChecked, fuel)
    ensures pollsOut > polls
    ensures Cancelled(cancel, polls) || fuel == 0 ==> children == []
    ensures Expansion(res, parsers, name, location, children, fuel > 0 && !Cancelled(cancel, pollsOut))
    ensures fuel > 0 ==> AllWalked(res, parsers, children, ChildLocation(Extension(name), location), isChecked, fuel - 1, !Cancelled(cancel, pollsOut))
    decreases fuel, 1
  {
    var ext := Extension(name);
    children := [];
    pollsOut := polls + 1;
    if !Cancelled(cancel, polls) && fuel > 0 {
      var deps := Dependencies(parsers, ext, GetData(res, Combine(location, name)).value);
      if deps.Some? {
        var dir := ChildLocation(ext, location);
        children, pollsOut := AddChildren(res, parsers, cancel, pollsOut, deps.value, dir, isChecked, fuel);
        assert (children, pollsOut) == ExpandFrom(res, parsers, cancel, polls, name, location, isChecked, fuel);
        ChildrenWalkedFacts(res, parsers, children, deps.value, dir, isChecked, fuel - 1, !Cancelled(cancel, pollsOut));
        ExpansionOfReferences(res, parsers, name, location, children, deps.value, !Cancelled(cancel, pollsOut));
        return;
      }
    }
    assert (children, pollsOut) == ExpandFrom(res, parsers, cancel, polls, name, location, isChecked, fuel);
    if fuel > 0 {
      AllWalkedEmpty(res, parsers, ChildLocation(ext, location), isChecked, fuel - 1, !Cancelled(cancel, pollsOut));
    }
  }

  /** No children are trivially walked. */
  lemma AllWalkedEmpty(res: Resolver, parsers: Parsers, dir: string, isChecked: bool, fuel: nat, complete: bool)
    ensures AllWalked(res, parsers, [], dir, isChecked, fuel, complete)
  {
  }

  /** Children that follow a resolvable node's references, all of them when complete, are its expansion. */
  lemma ExpansionOfReferences(res: Resolver, parsers: Parsers, name: string, location: string,
                              children: seq<Node>, refs: seq<string>, complete: bool)
    requires GetData(res, Combine(location, name)).Some?
    requires Dependencies(parsers, Extension(name), GetData(res, Combine(location, name)).value) == Some(refs)
    requires FollowsReferences(res, children, refs, ChildLocation(Extension(name), location))
    requires complete ==> |children| == |refs|
    ensures Expansion(res, parsers, name, location, children, complete)
  {
  }

  /**
   * The children built so far for the references `refs`: one per reference, in order, each
   * walked under dir, all but the last completely.
   */
  predicate ChildrenWalked(res: Resolver, parsers: Parsers, children: seq<Node>, refs: seq<string>, dir: string,
                           isChecked: bool, fuel: nat, complete: bool)
  {
    |children| <= |refs| &&
    (forall k :: 0 <= k < |children| ==> children[k].name == refs[k]) &&
    AllWalked(res, parsers, children, dir, isChecked, fuel, complete)
  }

  /** A child appended after a complete last child keeps the children walked. */
  lemma ChildrenWalkedAppend(res: Resolver, parsers: Parsers, children: seq<Node>, refs: seq<string>, dir: string,
                             isChecked: bool, fuel: nat, c: Node, complete: bool)
    requires ChildrenWalked(res, parsers, children, refs, dir, isChecked, fuel, true) && |children| < |refs|
    requires c.name == refs[|children|] && Walked(res, parsers, c, dir, isChecked, fuel, complete)
    ensures ChildrenWalked(res, parsers, children + [c], refs, dir, isChecked, fuel, complete)
  {
    var cs := children + [c];
    forall k | 0 <= k < |cs| - 1 ensures Walked(res, parsers, cs[k], dir, isChecked, fuel, true) {
      assert cs[k] == children[k];
      if k < |children| - 1 {
        assert Walked(res, parsers, children[k], dir, isChecked, fuel, true);
      } else {
        assert k == |children| - 1;
      }
    }
  }

  lemma ChildrenWalkedFacts(res: Resolver, parsers: Parsers, children: seq<Node>, refs: seq<string>, dir: string,
                            isChecked: bool, fuel: nat, complete: bool)
    requires ChildrenWalked(res, parsers, children, refs, dir, isChecked, fuel, complete)
    ensures FollowsReferences(res, children, refs, dir)
    ensures AllWalked(res, parsers, children, dir, isChecked, fuel, complete)
  {
    forall k | 0 <= k < |children|
      ensures children[k].resource == FindTkPath(res, Combine(dir, refs[k]))
    {
      if k < |children| - 1 {
        assert Walked(res, parsers, children[k], dir, isChecked, fuel, true);
      } else {
        assert Walked(res, parsers, children[|children| - 1], dir, isChecked, fuel, complete);
      }
    }
  }

  /**
   * The loop of _addNode over a resolvable node's distinct references `refs`: _addNode for
   * each, under `dir`, one level deeper; each node created is appended to the children.
   */
  method AddChildren(res: Resolver, parsers: Parsers, cancel: Cancel, polls: nat,
                     refs: seq<string>, dir: string, isChecked: bool, fuel: nat)
    returns (children: seq<Node>, pollsOut: nat)
    requires fuel > 0
    ensures (children, pollsOut) == ChildrenFrom(res, parsers, cancel, polls, refs, |refs|, dir, isChecked, fuel - 1)
    ensures pollsOut >= polls
    ensures ChildrenWalked(res, parsers, children, refs, dir, isChecked, fuel - 1, !Cancelled(cancel, pollsOut))
    // a reference without a node means the walk was cancelled
    ensures |children| < |refs| ==> Cancelled(cancel, pollsOut)
    decreases fuel, 0
  {
    children, pollsOut := [], polls;
    var i := 0;
    while i < |refs|
      invariant 0 <= i <= |refs| && |children| <= i
      invariant (children, pollsOut) == ChildrenFrom(res, parsers, cancel, polls, refs, i, dir, isChecked, fuel - 1)
      invariant pollsOut >= polls
      invariant ChildrenWalked(res, parsers, children, refs, dir, isChecked, fuel - 1, !Cancelled(cancel, pollsOut))
      invariant |children| < i ==> Cancelled(cancel, pollsOut)
    {
      children, pollsOut := AddChild(res, parsers, cancel, pollsOut, children, refs, i, dir, isChecked, fuel - 1);
      i := i + 1;
    }
  }

  /** One turn of that loop: the recursive _addNode call for refs[i], its node appended when there is one. */
  method AddChild(res: Resolver, parsers: Parsers, cancel: Cancel, polls: nat, children: seq<Node>,
                  refs: seq<string>, i: nat, dir: string, isChecked: bool, fuel: nat)
    returns (childrenOut: seq<Node>, pollsOut: nat)
    requires |children| <= i < |refs|
    requires ChildrenWalked(res, parsers, children, refs, dir, isChecked, fuel, !Cancelled(cancel, polls))
    requires |children| < i ==> Cancelled(cancel, polls)
    ensures var w := WalkFrom(res, parsers, cancel, polls, refs[i], dir, isChecked, fuel);
      childrenOut == (if w.0.Some? then children + [w.0.value] else children) && pollsOut == w.1
    ensures pollsOut > polls && |childrenOut| <= i + 1
    ensures ChildrenWalked(res, parsers, childrenOut, refs, dir, isChecked, fuel, !Cancelled(cancel, pollsOut))
    ensures |childrenOut| < i + 1 ==> Cancelled(cancel, pollsOut)
    decreases fuel, 4
  {
    var child;
    child, pollsOut := AddNode(res, parsers, cancel, polls, refs[i], dir, isChecked, fuel);
    childrenOut := children;
    if child.Some? {
      ChildrenWalkedAppend(res, parsers, children, refs, dir, isChecked, fuel, child.value, !Cancelled(cancel, pollsOut));
      childrenOut := children + [child.value];
    }
  }
}

=== FILE: wrappers.dfy ===
/** The optional value used throughout the model: `None` stands for the C# `null`. */
module Wrappers {
  datatype Option<+T> = None | Some(value: T)
}
